=== FILE: README.md ===
# Report-card administration client — a Dafny model of its decision layer

The system is a Next.js client for a student report-card service. Administrators
manage user accounts and upload report cards, which are images or PDFs. Regular
users view their own report cards. The client does no heavy computation. Its logic
is a small decision layer spread through the React components:

- client-side search over users and report cards;
- form guards and form resets;
- confirmation before a delete;
- session gating over two browser stores, `sessionStorage` and `localStorage`;
- role-based routing after login;
- the request helpers of the axios API module;
- the admin dashboard statistics.

This project lifts that layer into pure Dafny functions. Each event handler becomes
one state transition. The things the handler waits for are inputs to that
transition:

- HTTP outcomes become a `Reply`, `FetchResult` or `bool` argument;
- `confirm()` becomes a `bool`;
- `Date.now()` becomes an `int`;
- `atob` + `JSON.parse` become a function `string -> Option<…>`;
- `JSON.stringify` becomes a function `StoredUser -> string`.

The two storage areas are modelled separately, as two `map<string, string>` in a
`Browser` value. That is what exposes the first finding below.

Modules, one per source file or concern:

| module | file | models |
|---|---|---|
| `Wrappers` | wrappers.dfy | `Option` |
| `Strings` | strings.dfy | `includes`, `trim`, ASCII case mapping, `split('.').pop()` |
| `Decimal` | decimal.dfy | integer `toString()` and its inverse |
| `Types` | types.dfy | src/types/user.ts, src/types/dashboard.ts |
| `Storage` | storage.dfy | Web Storage areas, routes |
| `Sequences` | sequences.dfy | `filter`, `slice(0, n)` |
| `Api` | api.dfy | src/services/api.ts |
| `UserManagement` | user_management.dfy | src/components/UserManagement.tsx |
| `ReportCardManagement` | report_card_management.dfy | src/components/ReportCardManagement.tsx |
| `AdminDashboard` | admin_dashboard.dfy | src/components/AdminDashboard.tsx |
| `AdminPage` | admin_page.dfy | src/app/admin/page.tsx |
| `LoginPage` | login_page.dfy | src/app/login/page.tsx |
| `DashboardPage` | dashboard_page.dfy | src/app/dashboard/page.tsx |
| `SessionFlows` | session_flows.dfy | how the pages interact through storage |

Some behaviour of the code differs from what its names and messages suggest; the model follows the code:

- The API client's response interceptor only logs the error and rejects it again.
  It does not clear the session on a 401.
- The report-card upload does not check the title in code. Only the HTML
  `required` attribute enforces it.
- On the user dashboard, stored user data that does not parse is not treated as a
  missing session. `JSON.parse` throws out of the effect, modelled as `crashed`.
- Only the admin dashboard panel checks token expiry, and it does so only for
  `localStorage`.

## Model

| member | source | states |
|---|---|---|
| Strings.Includes | src/components/UserManagement.tsx:46-50 | `includes` is true exactly when some window of the text equals the term |
| Strings.Trim | src/components/UserManagement.tsx:40 | `trim` leaves the window between leading and trailing whitespace; the result is empty exactly when the text is all whitespace |
| Strings.LastSegment | src/components/ReportCardManagement.tsx:294 | `split('.').pop()` is the longest dot-free suffix; a dot comes right before it unless it is the whole path |
| Strings.ToUpper | src/components/ReportCardManagement.tsx:294 | upper-casing keeps the length and each letter up to case, and leaves no lower-case ASCII letter |
| Strings.ToLower | src/components/ReportCardManagement.tsx:254 | the regex `i` flag: each letter is kept up to case, and no upper-case ASCII letter is left |
| Decimal.IntToStringRoundTrip | src/services/api.ts:92-94 | `toString()` of an id parses back to the same id |
| Decimal.IntToStringInjective | src/services/api.ts:66 | distinct ids render to distinct strings, and equal strings mean equal ids |
| Sequences.Filter | src/components/UserManagement.tsx:45 | `filter` keeps exactly the elements satisfying the predicate, every occurrence of each, as an order-preserving subsequence |
| Sequences.FilterConcat | src/components/UserManagement.tsx:45 | filtering distributes over concatenation |
| Sequences.Take | src/components/AdminDashboard.tsx:105-106 | `slice(0, n)` is the prefix of length min(n, length) |
| Storage.ClearSession | src/components/AdminDashboard.tsx:46-47 | removing `token` and `user` deletes both keys and leaves every other key unchanged |
| Api.Authorize | src/services/api.ts:15-22 | a truthy sessionStorage token gives the bearer header; otherwise a truthy localStorage token does; with neither, the headers are unchanged |
| Api.EndpointsIdentifyRecords | src/services/api.ts:64-136 | the delete-user, delete-report-card and by-user requests, and the profile-image request for a given file, are injective in the id; user and report-card delete paths never coincide |
| Api.DeleteReportCard42 | src/services/api.ts:134-135 | deleting report card 42 sends `DELETE /report-cards/42` |
| Api.ReportCardFieldsRoundTrip | src/services/api.ts:89-98 | decoding the upload fields (file, userId, title, uploadedBy, then description if non-empty) gives back the request and file; only an empty description is lost |
| UserManagement.FilterUsers | src/components/UserManagement.tsx:39-53 | a blank term returns the whole list; otherwise a user is kept iff the term occurs in nationalCode, firstName, lastName, fatherName or "first last"; every occurrence is kept, in order |
| UserManagement.MatchingUsesUntrimmedTerm | src/components/UserManagement.tsx:40-50 | trimming decides only the blank case: "Ali" finds the user Ali Karimi but " Ali" finds nobody |
| UserManagement.InitialView | src/components/UserManagement.tsx:8-20 | the create form starts with all fields empty and role USER; the list starts empty |
| UserManagement.HandleCreateUser | src/components/UserManagement.tsx:55-76 | success closes the form, resets it to the initial form and reloads, where a payload that is not an array (api.ts:54) empties the list; failure keeps the typed input; loading ends false |
| UserManagement.HandleImageUpload | src/components/UserManagement.tsx:78-85 | with no file picked nothing is sent; otherwise the upload is sent, and a successful upload reloads the list, empty when the payload is not an array |
| UserManagement.HandleDeleteUser | src/components/UserManagement.tsx:87-98 | a declined confirmation sends no request and changes nothing; a confirmed one sends the delete, then reloads on success, empty when the payload is not an array |
| ReportCardManagement.FilterReportCards | src/components/ReportCardManagement.tsx:52-67 | a blank term returns all cards; otherwise a card is kept iff it matches the code's test, including the "undefined undefined" text of an owner-less card; order is kept |
| ReportCardManagement.OwnerlessCardMatch | src/components/ReportCardManagement.tsx:58-65 | a card with no owner is found only through its title, its description or "undefined undefined" |
| ReportCardManagement.UndefinedFindsOwnerlessCard | src/components/ReportCardManagement.tsx:63 | the term "undefined" finds an owner-less card titled "Math", although none of its fields contains the word |
| ReportCardManagement.IntendedSkipsOwnerlessCard | src/components/ReportCardManagement.tsx:58-65 | the corrected filter does not find that card for "undefined" |
| ReportCardManagement.FilterReportCardsIntended | src/components/ReportCardManagement.tsx:58-65 | corrected search: a card is kept iff the term occurs in its title, its description or a field of an owner that exists |
| ReportCardManagement.FiltersAgreeWithOwners | src/components/ReportCardManagement.tsx:58-65 | when every card has an owner, the as-written and corrected filters return the same list |
| ReportCardManagement.TypeLabel | src/components/ReportCardManagement.tsx:294 | the type label is the text after the last dot (the whole path when there is none), upper-cased letter by letter, so it contains no dot |
| ReportCardManagement.PreviewAgreesWithLabel | src/components/ReportCardManagement.tsx:254-294 | the image preview is shown iff the path has a dot and its type label is JPG, JPEG or PNG |
| ReportCardManagement.InitialView | src/components/ReportCardManagement.tsx:8-21 | the upload form starts as {userId 0, title '', description '', uploadedBy 1} with no file and no error |
| ReportCardManagement.HandleUpload | src/components/ReportCardManagement.tsx:69-102 | a missing file is reported before a missing user, and either stops the request; success resets the form to its initial values, clears the file, keeps the search term and reloads the list (empty for a non-array payload, api.ts:115) or shows the load error; failure keeps the form and shows the server message or the fallback |
| ReportCardManagement.HandleDelete | src/components/ReportCardManagement.tsx:104-116 | a declined confirmation changes nothing; a failed delete shows the delete error; a success reloads the list, empty for a non-array payload, or shows the load error |
| AdminDashboard.ComputeStats | src/components/AdminDashboard.tsx:98-107 | totals equal the array lengths, and a non-array counts as 0; the recent lists are the first min(5, n) entries in order |
| AdminDashboard.LoadDashboardData | src/components/AdminDashboard.tsx:22-114 | no token: error, go to /login, nothing sent; a token that does not decode or has expired: both keys removed, go to /login, nothing sent; a live token, and only a live token, sends the users and report-cards requests with it as bearer; users 401: both keys removed, go to /login; report-cards 401: ordinary error; the page leaves for /login exactly in those cases, so other failures keep storage and route; with a live token every failure keeps the previous statistics and shows an error: a rejected request's message, or the users or report-cards prefix with the status; both lists arrived: the statistics of the payloads; loading always ends false |
| AdminDashboard.HandleLogout | src/components/AdminDashboard.tsx:120-124 | removes `token` and `user` from localStorage, leaves sessionStorage unchanged, goes to /login |
| AdminPage.GateOn | src/app/admin/page.tsx:16-55 | missing token or user: go to /login and loading stays true; unparseable user: go to /login; role other than ADMIN: go to /dashboard; ADMIN: isAdmin set, no navigation |
| AdminPage.AuthGate | src/app/admin/page.tsx:19-29 | as written the gate consults sessionStorage: no token there means go to /login with the state untouched; an ADMIN user there is admitted |
| AdminPage.AuthGateLocal | src/app/login/page.tsx:36-37 | the corrected gate consults localStorage, where login writes: no token there means go to /login; an ADMIN user there is admitted |
| AdminPage.GateAdmitsExactlyAdmins | src/app/admin/page.tsx:19-54 | from the initial state the admin screen appears iff the store holds a token and a user whose parsed role is ADMIN, and it opens on the dashboard tab, showing the admin dashboard panel |
| AdminPage.Render | src/app/admin/page.tsx:65-110 | admin content is rendered iff not loading, isAdmin is set and a user is present, and it shows the active tab |
| AdminPage.Panels | src/app/admin/page.tsx:172-174 | exactly one panel is rendered |
| AdminPage.PanelsDistinguishTabs | src/app/admin/page.tsx:172-174 | different tabs render different panels |
| AdminPage.SelectTab | src/app/admin/page.tsx:136-165 | a tab click changes only the active tab |
| AdminPage.HandleLogout | src/app/admin/page.tsx:57-62 | removes both sessionStorage keys, leaves localStorage unchanged, goes to /login |
| LoginPage.HomeOf | src/app/login/page.tsx:43-47 | role ADMIN routes to /admin; any other role routes to /dashboard, never to /login |
| LoginPage.HandleLogin | src/app/login/page.tsx:13-53 | a failure sets the server message or the fallback, writes nothing and stays on the page; success writes token and user to localStorage only, then routes by role; loading ends false |
| DashboardPage.OnMount | src/app/dashboard/page.tsx:11-38 | missing localStorage token or user: go to /login and load nothing; unparseable user: the effect throws; otherwise one request to `/report-cards/user/{id}` with the stored bearer token |
| DashboardPage.Render | src/app/dashboard/page.tsx:45-99 | only the loading placeholder until a user is set; then a body whose `length` is 0, array or not, shows the no-cards text; a non-empty array lists its cards; any other body fails to render |
| DashboardPage.HandleLogout | src/app/dashboard/page.tsx:39-43 | removes both localStorage keys, goes to /login |
| SessionFlows.AdminLoginBouncesOffAdminPage | src/app/admin/page.tsx:19-29 | an admin who logs in with an empty sessionStorage is sent to /admin, which sends them back to /login with the spinner still up |
| SessionFlows.AdminLoginOpensAdminPanel | src/app/login/page.tsx:36-47 | with the gate reading localStorage, the same login opens the admin panel on its dashboard tab |
| SessionFlows.UserLoginOpensDashboard | src/app/login/page.tsx:36-47 | a non-admin login routes to /dashboard; the admin gate turns the user away and the dashboard requests that user's cards with the new token |
| SessionFlows.ApiUsesLoginToken | src/services/api.ts:15-22 | after a login with an empty sessionStorage, API requests carry the login token as bearer |
| SessionFlows.AdminLogoutKeepsLocalSession | src/app/admin/page.tsx:57-62 | after an admin-page logout, the user dashboard still admits the localStorage session it admitted before |

## Left out

- JSX markup and styling are left out, and so are `src/components/ImageModal.tsx` and the tab toggle in `src/app/page.tsx`. They contain no decision logic beyond `isOpen`.
- Networking is not modelled: axios, `fetch`, `Promise.all`, and React's asynchronous `setState` scheduling. Each handler is one atomic transition whose HTTP results are inputs.
- When both dashboard requests fail at the network level, the model reports the users request's failure. The real order depends on timing.
- `window.confirm`, `Date.now()`, `atob`, `JSON.parse` and `JSON.stringify` are oracle parameters. Token expiry compares whole milliseconds.
- Strings.Trim: whitespace is a fixed set (ASCII whitespace, NBSP, BOM, U+2028, U+2029), not the full Unicode set JavaScript removes.
- Strings.ToUpper: maps ASCII letters only; JavaScript's full Unicode case mapping is not modelled. ToLower has the same limit.
- Decimal.IntToStringRoundTrip: ids are unbounded integers; JavaScript numbers that are fractional or beyond 2^53 are not modelled.
- The response interceptor (src/services/api.ts:30-40) only logs and rejects again. It is modelled by its absence: no API-backed handler takes or changes the browser stores.
- Date formatting (`toLocaleDateString('fa-IR')`), `console` logging and the hard-coded `http://localhost:3001` prefix are not modelled. The dashboard requests are modelled by path only.
- The 10MB help text, the file input's `accept` filter and the title's `required` attribute are checked by the browser, not the code. They are not modelled as guards.
- `getUserWithReportCards`, `updateUser`, `getReportCard`, `getReportCardsByUser` and `updateReportCard` have request builders and paths, but no component calls them.
- LoginPage.HandleLogin: the error shown for a success body without a user is V8's TypeError text; other JavaScript engines word that message differently.
- The report-card view's mount effect and its `loadUsers` call are not modelled as handlers. The reload after an upload or delete is modelled.
- LoginPage.HandleLogin: the body's `user` is modelled by the fields the pages read (id, names, code, role). Other JSON shapes are left to the `stringify`/`parse` oracles.

## Findings

| source | as written | input that shows it | evidently intended | confidence | as-written member | corrected member |
|---|---|---|---|---|---|---|
| src/app/admin/page.tsx:19-20 | the admin gate reads `token`/`user` from sessionStorage, but login writes them to localStorage (src/app/login/page.tsx:36-37) | an ADMIN logs in, in a tab whose sessionStorage has no `token` | the gate reads the store login writes, as the dashboard page and the admin dashboard panel do | high, not executed | SessionFlows.AdminLoginBouncesOffAdminPage | AdminPage.AuthGateLocal, with SessionFlows.AdminLoginOpensAdminPanel |
| src/components/ReportCardManagement.tsx:63 | `${user?.firstName} ${user?.lastName}` renders "undefined undefined" for a card with no owner, and the search looks in that text | term "undefined", owner-less card titled "Math" with no description: the card is kept | an owner-less card matches only through its title or description | medium, not executed | ReportCardManagement.UndefinedFindsOwnerlessCard | ReportCardManagement.FilterReportCardsIntended, with ReportCardManagement.IntendedSkipsOwnerlessCard |

=== FILE: admin_dashboard.dfy ===
/** The admin dashboard panel of src/components/AdminDashboard.tsx: the token
    checks before loading, the two list requests, the 401 handling, the
    statistics, and logout. */
module AdminDashboard {
  import opened Wrappers
  import opened Types
  import opened Storage
  import opened Sequences
  import opened Decimal
  import Api

  // ---------------------------------------------------------------------------
  // Statistics
  // ---------------------------------------------------------------------------

  /** How many recent entries of each list the panel shows. */
  const RecentCount: nat := 5

  datatype Stats = Stats(
    totalUsers: nat,
    totalReportCards: nat,
    recentUsers: seq<User>,
    recentReportCards: seq<ReportCard>)

  function EmptyStats(): Stats { Stats(0, 0, [], []) }

  /** The statistics of two decoded payloads: the totals are the array lengths
      (zero for a non-array), the recent lists the first five entries in order. */
  function ComputeStats(users: Json<User>, cards: Json<ReportCard>): (s: Stats)
    ensures s.totalUsers == |Api.ArrayOrEmpty(users)| && s.totalReportCards == |Api.ArrayOrEmpty(cards)|
    ensures !users.JsonArray? ==> s.totalUsers == 0 && s.recentUsers == []
    ensures !cards.JsonArray? ==> s.totalReportCards == 0 && s.recentReportCards == []
    ensures |s.recentUsers| == Min(RecentCount, s.totalUsers) && s.recentUsers <= Api.ArrayOrEmpty(users)
    ensures |s.recentReportCards| == Min(RecentCount, s.totalReportCards) && s.recentReportCards <= Api.ArrayOrEmpty(cards)
  {
    var us := Api.ArrayOrEmpty(users);
    var cs := Api.ArrayOrEmpty(cards);
    Stats(|us|, |cs|, Take(us, RecentCount), Take(cs, RecentCount))
  }

  // ---------------------------------------------------------------------------
  // Loading
  // ---------------------------------------------------------------------------

  const MissingTokenMessage: string := "توکن احراز هویت یافت نشد. لطفاً دوباره وارد شوید."
  const ExpiredTokenMessage: string := "توکن منقضی شده است. لطفاً دوباره وارد شوید."
  const InvalidTokenMessage: string := "توکن نامعتبر است. لطفاً دوباره وارد شوید."
  const UnauthorizedMessage: string := "دسترسی غیرمجاز. لطفاً دوباره وارد شوید."
  const UsersFailedPrefix: string := "خطا در دریافت کاربران: "
  const ReportCardsFailedPrefix: string := "خطا در دریافت کارنامه‌ها: "
  const LoadFailedMessage: string := "خطا در بارگذاری داده‌ها"

  /** The payload of a JWT as `JSON.parse(atob(token.split('.')[1]))` yields it. */
  datatype TokenPayload = TokenPayload(exp: Option<int>)

  /** `payload.exp * 1000 < Date.now()`; a payload without `exp` compares NaN
      and so never counts as expired. */
  predicate IsExpired(p: TokenPayload, now: int) {
    p.exp.Some? && p.exp.value * 1000 < now
  }

  /** What a `fetch` settles to: a rejection with its message, or a response. */
  datatype FetchResult<T> = NetworkError(message: string) | Response(status: int, body: Json<T>)

  predicate IsOk<T>(r: FetchResult<T>) {
    r.Response? && 200 <= r.status <= 299
  }

  datatype View = View(stats: Stats, loading: bool, error: Option<string>)

  function InitialView(): View { View(EmptyStats(), true, None) }

  /** The panel after one load, the storage it leaves, where it navigates, and
      the requests it sent. */
  datatype Step = Step(view: View, browser: Browser, nav: Option<Route>, requests: seq<Fetch>)

  /** `error.message || fallback` in the catch-all handler. */
  function CaughtText(message: string): string {
    if |message| > 0 then message else LoadFailedMessage
  }

  /** Leaves the panel on the login page after forgetting the local session. */
  function SignOut(v: View, b: Browser, message: string): Step {
    Step(v.(error := Some(message)), b.(local := ClearSession(b.local)), Some(LoginRoute), [])
  }

  /** The part of `loadDashboardData` after both responses settled. */
  function Settle(v: View, b: Browser, usersRes: FetchResult<User>, cardsRes: FetchResult<ReportCard>, sent: seq<Fetch>): Step {
    if usersRes.NetworkError? then Step(v.(error := Some(CaughtText(usersRes.message))), b, None, sent)
    else if cardsRes.NetworkError? then Step(v.(error := Some(CaughtText(cardsRes.message))), b, None, sent)
    else if usersRes.status == 401 then SignOut(v, b, UnauthorizedMessage).(requests := sent)
    else if !IsOk(usersRes) then Step(v.(error := Some(UsersFailedPrefix + IntToString(usersRes.status))), b, None, sent)
    else if !IsOk(cardsRes) then Step(v.(error := Some(ReportCardsFailedPrefix + IntToString(cardsRes.status))), b, None, sent)
    else if usersRes.body.NotJson? then Step(v.(error := Some(CaughtText(usersRes.body.parseError))), b, None, sent)
    else if cardsRes.body.NotJson? then Step(v.(error := Some(CaughtText(cardsRes.body.parseError))), b, None, sent)
    else Step(v.(stats := ComputeStats(usersRes.body, cardsRes.body)), b, None, sent)
  }

  /** The local token is present, non-empty, decodes, and has not expired at `now`. */
  predicate LiveToken(b: Browser, decode: string -> Option<TokenPayload>, now: int) {
    && TokenKey in b.local && |b.local[TokenKey]| > 0
    && decode(b.local[TokenKey]).Some?
    && !IsExpired(decode(b.local[TokenKey]).value, now)
  }

  /** `loadDashboardData` as one transition. `decode` stands for
      `JSON.parse(atob(token.split('.')[1]))` (None when it throws), `now` for
      `Date.now()`, and the two results for the settled `fetch` calls. */
  function LoadDashboardData(
    v: View, b: Browser, decode: string -> Option<TokenPayload>, now: int,
    usersRes: FetchResult<User>, cardsRes: FetchResult<ReportCard>): (s: Step)
    // the panel always stops loading, and can only ever navigate to the login page
    ensures !s.view.loading
    ensures s.nav.Some? ==> s.nav == Some(LoginRoute) && s.view.error.Some?
    // storage changes only by forgetting the local session, and only on the way out
    ensures s.browser != b ==> s.nav == Some(LoginRoute) && s.browser == b.(local := ClearSession(b.local))
    // no token: nothing is sent and nothing is removed
    ensures !(TokenKey in b.local && |b.local[TokenKey]| > 0) ==>
              s == Step(v.(loading := false, error := Some(MissingTokenMessage)), b, Some(LoginRoute), [])
    // a token that cannot be decoded, or that has expired, is forgotten before anything is sent
    ensures TokenKey in b.local && |b.local[TokenKey]| > 0 && decode(b.local[TokenKey]).None? ==>
              s == Step(v.(loading := false, error := Some(InvalidTokenMessage)), b.(local := ClearSession(b.local)), Some(LoginRoute), [])
    ensures TokenKey in b.local && |b.local[TokenKey]| > 0 && decode(b.local[TokenKey]).Some?
            && IsExpired(decode(b.local[TokenKey]).value, now) ==>
              s == Step(v.(loading := false, error := Some(ExpiredTokenMessage)), b.(local := ClearSession(b.local)), Some(LoginRoute), [])
    // a live token, and only a live token: both lists are requested with it as the bearer
    ensures LiveToken(b, decode, now) ==>
              s.requests == [Fetch("/users", "Bearer " + b.local[TokenKey]), Fetch("/report-cards", "Bearer " + b.local[TokenKey])]
    ensures !LiveToken(b, decode, now) ==> s.requests == []
    // the panel leaves for the login page exactly when the token is not live or the
    // users list answers 401; any other failure leaves storage and route alone
    ensures s.nav.Some? <==>
              || !LiveToken(b, decode, now)
              || (usersRes.Response? && cardsRes.Response? && usersRes.status == 401)
    // a 401 on the users list signs out; a 401 on the report cards is an ordinary failure
    ensures |s.requests| > 0 && usersRes.Response? && cardsRes.Response? && usersRes.status == 401 ==>
              s.browser == b.(local := ClearSession(b.local)) && s.nav == Some(LoginRoute) && s.view.error == Some(UnauthorizedMessage)
    ensures |s.requests| > 0 && IsOk(usersRes) && cardsRes.Response? && cardsRes.status == 401 ==>
              s.browser == b && s.nav.None? && s.view.error == Some(ReportCardsFailedPrefix + "401")
    // with a live token, every failure keeps the previous statistics and shows an error
    ensures LiveToken(b, decode, now)
            && !(IsOk(usersRes) && IsOk(cardsRes) && !usersRes.body.NotJson? && !cardsRes.body.NotJson?) ==>
              s.view.stats == v.stats && s.view.error.Some?
    // a rejected request shows its message; a failed status the list's prefix and the status
    ensures LiveToken(b, decode, now) && usersRes.NetworkError? ==>
              s.browser == b && s.nav.None? && s.view.error == Some(CaughtText(usersRes.message))
    ensures LiveToken(b, decode, now) && usersRes.Response? && cardsRes.Response?
            && usersRes.status != 401 && !IsOk(usersRes) ==>
              s.browser == b && s.nav.None? && s.view.error == Some(UsersFailedPrefix + IntToString(usersRes.status))
    ensures LiveToken(b, decode, now) && IsOk(usersRes) && cardsRes.Response? && !IsOk(cardsRes) ==>
              s.browser == b && s.nav.None? && s.view.error == Some(ReportCardsFailedPrefix + IntToString(cardsRes.status))
    // both lists arrived: the statistics are those of the payloads
    ensures |s.requests| > 0 && IsOk(usersRes) && IsOk(cardsRes) && !usersRes.body.NotJson? && !cardsRes.body.NotJson? ==>
              s.view == View(ComputeStats(usersRes.body, cardsRes.body), false, None) && s.nav.None?
  {
    var started := v.(loading := true, error := None);
    var token := GetItem(b.local, TokenKey);
    var s :=
      if !Truthy(token) then
        Step(started.(error := Some(MissingTokenMessage)), b, Some(LoginRoute), [])
      else
        var payload := decode(token.value);
        if payload.None? then SignOut(started, b, InvalidTokenMessage)
        else if IsExpired(payload.value, now) then SignOut(started, b, ExpiredTokenMessage)
        else
          var bearer := "Bearer " + token.value;
          Settle(started, b, usersRes, cardsRes, [Fetch("/users", bearer), Fetch("/report-cards", bearer)]);
    assert IntToString(401) == "401" by {
      assert NatToString(401) == NatToString(40) + [DigitChar(1)];
      assert NatToString(40) == NatToString(4) + [DigitChar(0)];
    }
    s.(view := s.view.(loading := false))
  }

  /** `handleLogout`: the local session is forgotten and the login page shown;
      the tab-scoped session is left as it was. */
  function HandleLogout(b: Browser): (r: (Browser, Route))
    ensures r.0.session == b.session
    ensures TokenKey !in r.0.local && UserKey !in r.0.local
    ensures forall k :: k in b.local && k != TokenKey && k != UserKey ==> k in r.0.local && r.0.local[k] == b.local[k]
    ensures r.1 == LoginRoute
  {
    (b.(local := ClearSession(b.local)), LoginRoute)
  }
}

=== FILE: admin_page.dfy ===
/** The admin page of src/app/admin/page.tsx: the authentication effect run on
    mount, the choice of what to render, the tabs, and logout. */
module AdminPage {
  import opened Wrappers
  import opened Types
  import opened Storage

  datatype Tab = DashboardTab | UsersTab | ReportCardsTab

  datatype State = State(activeTab: Tab, user: Option<StoredUser>, loading: bool, isAdmin: bool)

  /** The state before the effect runs. */
  function Initial(): State {
    State(DashboardTab, None, true, false)
  }

  /** The state after the effect, and where it navigated. */
  datatype Gate = Gate(state: State, nav: Option<Route>)

  /** The authentication effect reading token and user from `store`; `parse`
      stands for `JSON.parse` (None when it throws). A missing entry returns
      before the `try`, so its `finally` never clears `loading`. */
  function GateOn(st: State, store: Store, parse: string -> Option<StoredUser>): (g: Gate)
    ensures !Truthy(GetItem(store, TokenKey)) || !Truthy(GetItem(store, UserKey)) ==>
              g == Gate(st, Some(LoginRoute))
    ensures Truthy(GetItem(store, TokenKey)) && Truthy(GetItem(store, UserKey)) ==>
              && !g.state.loading && g.state.activeTab == st.activeTab
              && match parse(store[UserKey])
                 case None => g == Gate(st.(loading := false), Some(LoginRoute))
                 case Some(u) =>
                   && g.state.user == Some(u)
                   && (g.state.isAdmin <==> st.isAdmin || u.role == AdminRole)
                   && (g.nav.None? <==> u.role == AdminRole)
                   && (u.role != AdminRole ==> g.nav == Some(DashboardRoute))
  {
    var userData := GetItem(store, UserKey);
    var token := GetItem(store, TokenKey);
    if !Truthy(token) || !Truthy(userData) then Gate(st, Some(LoginRoute))
    else
      match parse(userData.value)
      case None => Gate(st.(loading := false), Some(LoginRoute))
      case Some(u) =>
        var withUser := st.(user := Some(u));
        if u.role != AdminRole then Gate(withUser.(loading := false), Some(DashboardRoute))
        else Gate(withUser.(isAdmin := true, loading := false), None)
  }

  /** The effect as written: it reads the tab-scoped `sessionStorage`. */
  function AuthGate(st: State, b: Browser, parse: string -> Option<StoredUser>): (g: Gate)
    ensures !Truthy(GetItem(b.session, TokenKey)) ==> g.nav == Some(LoginRoute) && g.state == st
    ensures Truthy(GetItem(b.session, TokenKey)) && Truthy(GetItem(b.session, UserKey))
            && parse(b.session[UserKey]).Some? && parse(b.session[UserKey]).value.role == AdminRole ==>
              g.nav.None? && g.state.isAdmin && !g.state.loading
  {
    GateOn(st, b.session, parse)
  }

  /** The effect reading `localStorage`, where the login page stores the session. */
  function AuthGateLocal(st: State, b: Browser, parse: string -> Option<StoredUser>): (g: Gate)
    ensures !Truthy(GetItem(b.local, TokenKey)) ==> g.nav == Some(LoginRoute) && g.state == st
    ensures Truthy(GetItem(b.local, TokenKey)) && Truthy(GetItem(b.local, UserKey))
            && parse(b.local[UserKey]).Some? && parse(b.local[UserKey]).value.role == AdminRole ==>
              g.nav.None? && g.state.isAdmin && !g.state.loading
  {
    GateOn(st, b.local, parse)
  }

  /** What the page shows. */
  datatype Screen = LoadingScreen | RedirectingScreen | UserMissingScreen | AdminScreen(tab: Tab)

  /** The early returns of the render: loading, not admin, no user, else the panel. */
  function Render(st: State): (sc: Screen)
    ensures sc.AdminScreen? <==> !st.loading && st.isAdmin && st.user.Some?
    ensures sc.AdminScreen? ==> sc.tab == st.activeTab
  {
    if st.loading then LoadingScreen
    else if !st.isAdmin then RedirectingScreen
    else if st.user.None? then UserMissingScreen
    else AdminScreen(st.activeTab)
  }

  /** Starting from the initial state, the admin panel appears exactly when the
      store holds a token and a user whose parsed role is ADMIN; a missing entry
      leaves the spinner up for good. */
  lemma GateAdmitsExactlyAdmins(store: Store, parse: string -> Option<StoredUser>)
    ensures var g := GateOn(Initial(), store, parse);
            Render(g.state).AdminScreen? <==>
              && Truthy(GetItem(store, TokenKey)) && Truthy(GetItem(store, UserKey))
              && parse(store[UserKey]).Some? && parse(store[UserKey]).value.role == AdminRole
    ensures var g := GateOn(Initial(), store, parse);
            !Truthy(GetItem(store, TokenKey)) || !Truthy(GetItem(store, UserKey)) ==>
              Render(g.state) == LoadingScreen && g.nav == Some(LoginRoute)
    ensures var g := GateOn(Initial(), store, parse);
            Render(g.state).AdminScreen? ==> Render(g.state).tab == DashboardTab && g.nav.None?
    ensures var g := GateOn(Initial(), store, parse);
            Render(g.state).AdminScreen? ==> Panels(Render(g.state).tab) == [DashboardPanel]
  {
  }

  /** The three panel components. */
  datatype Panel = DashboardPanel | UserManagementPanel | ReportCardManagementPanel

  /** The content area: three conditionals, one per tab, in page order. */
  function Panels(tab: Tab): (r: seq<Panel>)
    ensures |r| == 1
  {
    (if tab == DashboardTab then [DashboardPanel] else [])
    + (if tab == UsersTab then [UserManagementPanel] else [])
    + (if tab == ReportCardsTab then [ReportCardManagementPanel] else [])
  }

  /** Each tab shows its own panel: different tabs never show the same one. */
  lemma PanelsDistinguishTabs(a: Tab, b: Tab)
    ensures Panels(a) == Panels(b) <==> a == b
  {
    if a != b {
      assert Panels(a)[0] != Panels(b)[0] by {
        match a
        case DashboardTab => assert Panels(a) == [DashboardPanel];
        case UsersTab => assert Panels(a) == [UserManagementPanel];
        case ReportCardsTab => assert Panels(a) == [ReportCardManagementPanel];
      }
    }
  }

  /** A tab button click: only the active tab changes. */
  function SelectTab(st: State, t: Tab): (r: State)
    ensures r.activeTab == t && r.user == st.user && r.loading == st.loading && r.isAdmin == st.isAdmin
  {
    st.(activeTab := t)
  }

  /** `handleLogout`: the tab-scoped session is forgotten and the login page
      shown; `localStorage` is left as it was. */
  function HandleLogout(b: Browser): (r: (Browser, Route))
    ensures r.0.local == b.local
    ensures TokenKey !in r.0.session && UserKey !in r.0.session
    ensures forall k :: k in b.session && k != TokenKey && k != UserKey ==> k in r.0.session && r.0.session[k] == b.session[k]
    ensures r.1 == LoginRoute
  {
    (b.(session := ClearSession(b.session)), LoginRoute)
  }
}

=== FILE: api.dfy ===
/** The axios client of src/services/api.ts: the bearer-token request
    interceptor, the endpoint paths, the multipart bodies and the list
    normalisation of the getters. */
module Api {
  import opened Wrappers
  import opened Types
  import opened Storage
  import opened Decimal

  datatype Method = GET | POST | PATCH | DELETE

  /** One entry of a `FormData` body, in the order it was appended. */
  datatype FormField = TextField(name: string, text: string) | FileField(name: string, file: File)

  datatype Body =
    | NoBody
    | NewUserBody(form: NewUserForm)
    | UserUpdateBody(update: UpdateUserRequest)
    | CardUpdateBody(cardUpdate: UpdateReportCardRequest)
    | Multipart(fields: seq<FormField>)

  /** A request as the client hands it to the transport, before the interceptor. */
  datatype Request = Request(verb: Method, path: string, body: Body)

  type Headers = map<string, string>

  const AuthorizationHeader: string := "Authorization"
  const BearerPrefix: string := "Bearer "

  // ---------------------------------------------------------------------------
  // Request interceptor
  // ---------------------------------------------------------------------------

  /** `sessionStorage.getItem('token') || localStorage.getItem('token')`. */
  function RequestToken(b: Browser): Option<string> {
    var fromSession := GetItem(b.session, TokenKey);
    if Truthy(fromSession) then fromSession else GetItem(b.local, TokenKey)
  }

  /** The interceptor: a truthy session token wins, a truthy local token is
      the fallback, and with neither the headers pass through untouched. */
  function Authorize(h: Headers, b: Browser): (r: Headers)
    ensures TokenKey in b.session && |b.session[TokenKey]| > 0 ==>
              r == h[AuthorizationHeader := BearerPrefix + b.session[TokenKey]]
    ensures !(TokenKey in b.session && |b.session[TokenKey]| > 0) && TokenKey in b.local && |b.local[TokenKey]| > 0 ==>
              r == h[AuthorizationHeader := BearerPrefix + b.local[TokenKey]]
    ensures !(TokenKey in b.session && |b.session[TokenKey]| > 0) && !(TokenKey in b.local && |b.local[TokenKey]| > 0) ==>
              r == h
  {
    var token := RequestToken(b);
    if Truthy(token) then h[AuthorizationHeader := BearerPrefix + token.value] else h
  }

  // ---------------------------------------------------------------------------
  // Endpoints
  // ---------------------------------------------------------------------------

  const UsersPath: string := "/users"
  const ReportCardsPath: string := "/report-cards"

  function UserPath(userId: int): string {
    UsersPath + "/" + IntToString(userId)
  }

  function ReportCardPath(reportCardId: int): string {
    ReportCardsPath + "/" + IntToString(reportCardId)
  }

  function GetUsers(): Request { Request(GET, UsersPath, NoBody) }

  function CreateUser(form: NewUserForm): Request { Request(POST, UsersPath, NewUserBody(form)) }

  function ProfileImageFields(image: File): seq<FormField> { [FileField("image", image)] }

  function UploadProfileImage(userId: int, image: File): Request {
    Request(POST, UserPath(userId) + "/profile-image", Multipart(ProfileImageFields(image)))
  }

  function DeleteUser(userId: int): Request { Request(DELETE, UserPath(userId), NoBody) }

  function GetUserWithReportCards(userId: int): Request {
    Request(GET, UserPath(userId) + "/report-cards", NoBody)
  }

  function UpdateUser(userId: int, update: UpdateUserRequest): Request {
    Request(PATCH, UserPath(userId), UserUpdateBody(update))
  }

  function GetReportCards(): Request { Request(GET, ReportCardsPath, NoBody) }

  function GetReportCardsByUser(userId: int): Request {
    Request(GET, ReportCardsPath + "/user/" + IntToString(userId), NoBody)
  }

  function GetReportCard(reportCardId: int): Request {
    Request(GET, ReportCardPath(reportCardId), NoBody)
  }

  function UpdateReportCard(reportCardId: int, update: UpdateReportCardRequest): Request {
    Request(PATCH, ReportCardPath(reportCardId), CardUpdateBody(update))
  }

  function DeleteReportCard(reportCardId: int): Request {
    Request(DELETE, ReportCardPath(reportCardId), NoBody)
  }

  /** `prefix + IntToString(id) + suffix` recovers `id` when prefix and suffix are known. */
  lemma PathRecoversId(prefix: string, suffix: string, a: int, b: int)
    requires prefix + IntToString(a) + suffix == prefix + IntToString(b) + suffix
    ensures a == b
  {
    var sa := prefix + IntToString(a) + suffix;
    var sb := prefix + IntToString(b) + suffix;
    assert |IntToString(a)| == |IntToString(b)|;
    assert IntToString(a) == sa[|prefix|..|sa| - |suffix|];
    assert IntToString(b) == sb[|prefix|..|sb| - |suffix|];
    IntToStringInjective(a, b);
  }

  /** Every id-carrying endpoint addresses exactly one record: distinct ids give
      distinct paths, and user and report-card paths never coincide. */
  lemma EndpointsIdentifyRecords(a: int, b: int, f: File)
    ensures DeleteUser(a) == DeleteUser(b) <==> a == b
    ensures DeleteReportCard(a) == DeleteReportCard(b) <==> a == b
    ensures UploadProfileImage(a, f) == UploadProfileImage(b, f) <==> a == b
    ensures GetReportCardsByUser(a) == GetReportCardsByUser(b) <==> a == b
    ensures DeleteUser(a).path != DeleteReportCard(b).path
  {
    forall x: int ensures DeleteUser(x).path == "/users/" + IntToString(x) + ""
      && DeleteReportCard(x).path == "/report-cards/" + IntToString(x) + ""
      && UploadProfileImage(x, f).path == "/users/" + IntToString(x) + "/profile-image"
      && GetReportCardsByUser(x).path == "/report-cards/user/" + IntToString(x) + ""
    {
      assert UsersPath + "/" == "/users/";
      assert ReportCardsPath + "/" == "/report-cards/";
      assert ReportCardsPath + "/user/" == "/report-cards/user/";
    }
    if DeleteUser(a) == DeleteUser(b) { PathRecoversId("/users/", "", a, b); }
    if DeleteReportCard(a) == DeleteReportCard(b) { PathRecoversId("/report-cards/", "", a, b); }
    if UploadProfileImage(a, f) == UploadProfileImage(b, f) {
      PathRecoversId("/users/", "/profile-image", a, b);
    }
    if GetReportCardsByUser(a) == GetReportCardsByUser(b) {
      PathRecoversId("/report-cards/user/", "", a, b);
    }
    var u := DeleteUser(a).path;
    var c := DeleteReportCard(b).path;
    assert u[1] == 'u' && c[1] == 'r';
  }

  /** Deleting report card 42 sends `DELETE /report-cards/42`. */
  lemma DeleteReportCard42()
    ensures DeleteReportCard(42) == Request(DELETE, "/report-cards/42", NoBody)
  {
    assert NatToString(42) == NatToString(4) + [DigitChar(2)];
  }

  // ---------------------------------------------------------------------------
  // List getters
  // ---------------------------------------------------------------------------

  /** `Array.isArray(data) ? data : []`. */
  function ArrayOrEmpty<T>(data: Json<T>): (r: seq<T>)
    ensures |r| == 0 <==> !data.JsonArray? || |data.items| == 0
  {
    match data
    case JsonArray(items) => items
    case _ => []
  }

  // ---------------------------------------------------------------------------
  // Report-card upload body
  // ---------------------------------------------------------------------------

  /** JavaScript truthiness of the optional description. */
  predicate HasDescription(data: CreateReportCardRequest) {
    data.description.Some? && |data.description.value| > 0
  }

  /** The multipart fields of `createReportCard`, in append order. */
  function ReportCardFields(data: CreateReportCardRequest, file: File): seq<FormField> {
    var required := [
      FileField("file", file),
      TextField("userId", IntToString(data.userId)),
      TextField("title", data.title),
      TextField("uploadedBy", IntToString(data.uploadedBy))];
    if HasDescription(data) then required + [TextField("description", data.description.value)] else required
  }

  function CreateReportCard(data: CreateReportCardRequest, file: File): Request {
    Request(POST, ReportCardsPath, Multipart(ReportCardFields(data, file)))
  }

  /** The text of the first field called `name`. */
  function TextOf(fields: seq<FormField>, name: string): Option<string>
    decreases |fields|
  {
    if |fields| == 0 then None
    else if fields[0].TextField? && fields[0].name == name then Some(fields[0].text)
    else TextOf(fields[1..], name)
  }

  /** The file of the first file field called `name`. */
  function FileOf(fields: seq<FormField>, name: string): Option<File>
    decreases |fields|
  {
    if |fields| == 0 then None
    else if fields[0].FileField? && fields[0].name == name then Some(fields[0].file)
    else FileOf(fields[1..], name)
  }

  /** How a server reads the upload body back into metadata and file. */
  function DecodeReportCardFields(fields: seq<FormField>): Option<(CreateReportCardRequest, File)> {
    var file := FileOf(fields, "file");
    var userId := TextOf(fields, "userId");
    var title := TextOf(fields, "title");
    var uploader := TextOf(fields, "uploadedBy");
    if file.None? || userId.None? || title.None? || uploader.None? then None
    else
      var id := ParseInt(userId.value);
      var uploadedBy := ParseInt(uploader.value);
      if id.None? || uploadedBy.None? then None
      else Some((CreateReportCardRequest(id.value, title.value, TextOf(fields, "description"), uploadedBy.value), file.value))
  }

  /** The request as it survives the form encoding: an empty description is dropped. */
  function Canonical(data: CreateReportCardRequest): CreateReportCardRequest {
    if HasDescription(data) then data else data.(description := None)
  }

  /** The upload body carries the file, both ids, the title and any non-empty
      description, and nothing is lost but an empty description. */
  lemma ReportCardFieldsRoundTrip(data: CreateReportCardRequest, file: File)
    ensures DecodeReportCardFields(ReportCardFields(data, file)) == Some((Canonical(data), file))
  {
    IntToStringRoundTrip(data.userId);
    IntToStringRoundTrip(data.uploadedBy);
    var fields := ReportCardFields(data, file);
    assert fields[1..][1..] == fields[2..] && fields[2..][1..] == fields[3..] && fields[3..][1..] == fields[4..];
    assert FileOf(fields, "file") == Some(file);
    assert TextOf(fields, "userId") == TextOf(fields[1..], "userId") == Some(IntToString(data.userId));
    assert TextOf(fields, "title") == TextOf(fields[1..], "title") == TextOf(fields[2..], "title") == Some(data.title);
    assert TextOf(fields, "uploadedBy") == TextOf(fields[1..], "uploadedBy") == TextOf(fields[2..], "uploadedBy")
        == TextOf(fields[3..], "uploadedBy") == Some(IntToString(data.uploadedBy));
    assert TextOf(fields, "description") == TextOf(fields[1..], "description") == TextOf(fields[2..], "description")
        == TextOf(fields[3..], "description") == TextOf(fields[4..], "description");
    if HasDescription(data) {
      assert fields[4..][0] == TextField("description", data.description.value);
    } else {
      assert fields[4..] == [];
    }
  }
}

=== FILE: dashboard_page.dfy ===
/** The user dashboard of src/app/dashboard/page.tsx: the session check on
    mount, the fetch of the user's own report cards, logout, and rendering. */
module DashboardPage {
  import opened Wrappers
  import opened Types
  import opened Storage
  import opened Decimal

  /** `reportCards` holds whatever JSON the endpoint answered, array or not. */
  datatype State = State(user: Option<StoredUser>, reportCards: Json<ReportCard>)

  function Initial(): State { State(None, JsonArray([])) }

  /** How the report-card request settles: rejected, or answered with a body. */
  datatype CardsReply = NetworkError | Answered(body: Json<ReportCard>)

  /** The page after its mount effect. `crashed` marks the uncaught exception
      of `JSON.parse` on stored user data that is not JSON. */
  datatype Mount = Mount(state: State, nav: Option<Route>, requests: seq<Fetch>, crashed: bool)

  function CardsPath(userId: int): string {
    "/report-cards/user/" + IntToString(userId)
  }

  /** The mount effect; `parse` stands for `JSON.parse` (None when it throws). */
  function OnMount(st: State, b: Browser, parse: string -> Option<StoredUser>, reply: CardsReply): (m: Mount)
    // without both entries the page goes to login and loads nothing
    ensures !Truthy(GetItem(b.local, TokenKey)) || !Truthy(GetItem(b.local, UserKey)) ==>
              m == Mount(st, Some(LoginRoute), [], false)
    // unreadable user data is not caught: the effect throws instead of redirecting
    ensures Truthy(GetItem(b.local, TokenKey)) && Truthy(GetItem(b.local, UserKey)) && parse(b.local[UserKey]).None? ==>
              m == Mount(st, None, [], true)
    // otherwise exactly one request, for this user's cards, with the local token
    ensures Truthy(GetItem(b.local, TokenKey)) && Truthy(GetItem(b.local, UserKey)) && parse(b.local[UserKey]).Some? ==>
              && m.nav.None? && !m.crashed
              && m.state.user == parse(b.local[UserKey])
              && m.requests == [Fetch(CardsPath(parse(b.local[UserKey]).value.id), "Bearer " + b.local[TokenKey])]
              && (reply.Answered? && !reply.body.NotJson? ==> m.state.reportCards == reply.body)
              && (reply.NetworkError? || reply.body.NotJson? ==> m.state.reportCards == st.reportCards)
    ensures m.nav.Some? ==> m.nav == Some(LoginRoute) && m.requests == []
  {
    var userData := GetItem(b.local, UserKey);
    var token := GetItem(b.local, TokenKey);
    if !Truthy(token) || !Truthy(userData) then Mount(st, Some(LoginRoute), [], false)
    else
      match parse(userData.value)
      case None => Mount(st, None, [], true)
      case Some(u) =>
        var request := Fetch(CardsPath(u.id), "Bearer " + token.value);
        var cards := if reply.Answered? && !reply.body.NotJson? then reply.body else st.reportCards;
        Mount(State(Some(u), cards), None, [request], false)
  }

  /** What the page shows. A stored body whose `length` is 0 shows the empty-list
      text; any other body that is not an array fails in `reportCards.map` (or,
      for `null`, already in reading `length`). */
  datatype Screen = LoadingScreen | NoCardsScreen(user: StoredUser) | CardsScreen(user: StoredUser, cards: seq<ReportCard>) | RenderError

  /** `reportCards.length === 0` for the stored body. */
  predicate HasZeroLength(body: Json<ReportCard>) {
    match body
    case JsonArray(items) => |items| == 0
    case JsonOther(zeroLength) => zeroLength
    case NotJson(_) => false
  }

  function Render(st: State): (sc: Screen)
    ensures st.user.None? <==> sc == LoadingScreen
    ensures sc.NoCardsScreen? <==> st.user.Some? && HasZeroLength(st.reportCards)
    ensures sc.NoCardsScreen? ==> sc.user == st.user.value
    ensures sc.CardsScreen? <==> st.user.Some? && st.reportCards.JsonArray? && |st.reportCards.items| > 0
    ensures sc.CardsScreen? ==> sc.user == st.user.value && st.reportCards == JsonArray(sc.cards)
    ensures sc == RenderError <==> st.user.Some? && !st.reportCards.JsonArray? && !HasZeroLength(st.reportCards)
  {
    if st.user.None? then LoadingScreen
    else if HasZeroLength(st.reportCards) then NoCardsScreen(st.user.value)
    else if st.reportCards.JsonArray? then CardsScreen(st.user.value, st.reportCards.items)
    else RenderError
  }

  /** `handleLogout`: the local session is forgotten and the login page shown. */
  function HandleLogout(b: Browser): (r: (Browser, Route))
    ensures r.0.session == b.session
    ensures TokenKey !in r.0.local && UserKey !in r.0.local
    ensures forall k :: k in b.local && k != TokenKey && k != UserKey ==> k in r.0.local && r.0.local[k] == b.local[k]
    ensures r.1 == LoginRoute
  {
    (b.(local := ClearSession(b.local)), LoginRoute)
  }
}

=== FILE: decimal.dfy ===
/** Decimal rendering of integer ids, as JavaScript's `Number.prototype.toString()`
    and template literals produce it, with a parser as its inverse. */
module Decimal {
  import opened Wrappers

  predicate IsDigit(c: char) { '0' <= c <= '9' }

  predicate AllDigits(s: string) {
    forall k :: 0 <= k < |s| ==> IsDigit(s[k])
  }

  function DigitChar(d: int): (c: char)
    requires 0 <= d < 10
  {
    ('0' as int + d) as char
  }

  function DigitValue(c: char): int
    requires IsDigit(c)
  {
    c as int - '0' as int
  }

  /** Renders a non-negative integer in base ten without leading zeros. */
  function NatToString(n: nat): (r: string)
    ensures |r| > 0 && AllDigits(r)
    ensures r[0] != '-'
    decreases n
  {
    if n < 10 then [DigitChar(n)] else NatToString(n / 10) + [DigitChar(n % 10)]
  }

  /** The value of a string of decimal digits, most significant first. */
  function DigitsValue(s: string): nat
    requires AllDigits(s)
    decreases |s|
  {
    if |s| == 0 then 0 else DigitsValue(s[..|s| - 1]) * 10 + DigitValue(s[|s| - 1])
  }

  /** `n.toString()` for an integer `n`. */
  function IntToString(n: int): string {
    if n < 0 then "-" + NatToString(-n) else NatToString(n)
  }

  /** Reads back an optionally negative decimal integer; anything else is None. */
  function ParseInt(s: string): Option<int> {
    if |s| > 1 && s[0] == '-' && forall k :: 1 <= k < |s| ==> IsDigit(s[k]) then
      assert AllDigits(s[1..]) by {
        forall k | 0 <= k < |s[1..]| ensures IsDigit(s[1..][k]) { assert s[1..][k] == s[k + 1]; }
      }
      Some(-(DigitsValue(s[1..]) as int))
    else if |s| > 0 && AllDigits(s) then Some(DigitsValue(s))
    else None
  }

  lemma {:induction false} NatToStringValue(n: nat)
    ensures DigitsValue(NatToString(n)) == n
    decreases n
  {
    if n >= 10 {
      NatToStringValue(n / 10);
      var r := NatToString(n);
      assert r[..|r| - 1] == NatToString(n / 10);
    }
  }

  /** Parsing undoes rendering: `IntToString` loses no information. */
  lemma IntToStringRoundTrip(n: int)
    ensures ParseInt(IntToString(n)) == Some(n)
  {
    if n < 0 {
      var d := NatToString(-n);
      var s := "-" + d;
      assert s[1..] == d;
      NatToStringValue(-n);
      forall k | 1 <= k < |s| ensures IsDigit(s[k]) { assert s[k] == d[k - 1]; }
    } else {
      NatToStringValue(n);
    }
  }

  /** Distinct ids render to distinct strings. */
  lemma IntToStringInjective(a: int, b: int)
    ensures IntToString(a) == IntToString(b) <==> a == b
  {
    if IntToString(a) == IntToString(b) {
      IntToStringRoundTrip(a);
      IntToStringRoundTrip(b);
    }
  }
}

=== FILE: login_page.dfy ===
/** The login page of src/app/login/page.tsx: one submission of the form. */
module LoginPage {
  import opened Wrappers
  import opened Types
  import opened Storage

  datatype State = State(nationalCode: string, password: string, loading: bool, error: string)

  function Initial(): State { State("", "", false, "") }

  /** The JSON body of the login endpoint; every field may be missing. */
  datatype LoginBody = LoginBody(message: Option<string>, accessToken: Option<string>, user: Option<StoredUser>)

  /** How the request settles: `fetch` rejects, `response.json()` rejects, or a
      decoded body arrives with the response's `ok` flag. */
  datatype Reply =
    | NetworkError(message: string)
    | NotJson(parseError: string)
    | Decoded(ok: bool, body: LoginBody)

  /** The request the form sends: `POST /auth/login` with the two credentials. */
  datatype Credentials = Credentials(nationalCode: string, password: string)

  /** The page after one submission, the storage it leaves, where it goes, and
      what it sent. */
  datatype Step = Step(state: State, browser: Browser, nav: Option<Route>, sent: Credentials)

  const LoginFailedMessage: string := "خطا در ورود"

  /** The message V8 (the engine of Chrome and Node.js) gives the TypeError thrown
      by `data.user.role` when the body has no user; other engines word it differently. */
  const MissingUserMessage: string := "Cannot read properties of undefined (reading 'role')"

  /** `localStorage.setItem` stores `String(value)`, so a missing value is stored as "undefined". */
  const UndefinedText: string := "undefined"

  /** `data.message || fallback`. */
  function FailureText(message: Option<string>): string {
    if message.Some? && |message.value| > 0 then message.value else LoginFailedMessage
  }

  /** The route for a role: ADMIN goes to the admin page, every other role to the dashboard. */
  function HomeOf(role: string): (r: Route)
    ensures r == AdminRoute <==> role == AdminRole
    ensures r != LoginRoute
  {
    if role == AdminRole then AdminRoute else DashboardRoute
  }

  /** `handleLogin` as one transition; `stringify` stands for `JSON.stringify`. */
  function HandleLogin(st: State, b: Browser, reply: Reply, stringify: StoredUser -> string): (s: Step)
    // every attempt sends the typed credentials and ends with loading off
    ensures s.sent == Credentials(st.nationalCode, st.password)
    ensures !s.state.loading
    ensures s.state.nationalCode == st.nationalCode && s.state.password == st.password
    // the tab-scoped store is never written
    ensures s.browser.session == b.session
    // a failed attempt shows an error, writes nothing and stays on the page
    ensures reply.Decoded? && !reply.ok ==>
              s.browser == b && s.nav.None? && s.state.error == FailureText(reply.body.message)
    ensures reply.NetworkError? ==> s.browser == b && s.nav.None? && s.state.error == reply.message
    ensures reply.NotJson? ==> s.browser == b && s.nav.None? && s.state.error == reply.parseError
    // a successful answer is written to localStorage before anything else happens
    ensures reply.Decoded? && reply.ok ==>
              && s.browser.local == b.local[TokenKey := reply.body.accessToken.GetOr(UndefinedText)]
                                           [UserKey := if reply.body.user.Some? then stringify(reply.body.user.value) else UndefinedText]
    // and routes by role, with the error left cleared
    ensures reply.Decoded? && reply.ok && reply.body.user.Some? ==>
              s.nav == Some(HomeOf(reply.body.user.value.role)) && s.state.error == ""
    ensures reply.Decoded? && reply.ok && reply.body.user.None? ==>
              s.nav.None? && s.state.error == MissingUserMessage
    // navigation happens only after a successful answer
    ensures s.nav.Some? ==> reply.Decoded? && reply.ok
  {
    var started := st.(loading := true, error := "");
    var sent := Credentials(st.nationalCode, st.password);
    var s :=
      match reply
      case NetworkError(m) => Step(started.(error := m), b, None, sent)
      case NotJson(m) => Step(started.(error := m), b, None, sent)
      case Decoded(ok, body) =>
        if !ok then Step(started.(error := FailureText(body.message)), b, None, sent)
        else
          var token := body.accessToken.GetOr(UndefinedText);
          var userJson := if body.user.Some? then stringify(body.user.value) else UndefinedText;
          var written := b.(local := SetItem(SetItem(b.local, TokenKey, token), UserKey, userJson));
          if body.user.None? then Step(started.(error := MissingUserMessage), written, None, sent)
          else Step(started, written, Some(HomeOf(body.user.value.role)), sent);
    s.(state := s.state.(loading := false))
  }
}

=== FILE: report_card_management.dfy ===
/** The report-card view of src/components/ReportCardManagement.tsx: client-side
    search, the upload guards and reset, confirmed delete, and the file preview
    and type label of each list entry. */
module ReportCardManagement {
  import opened Wrappers
  import opened Types
  import opened Strings
  import opened Sequences
  import Api

  // ---------------------------------------------------------------------------
  // Search
  // ---------------------------------------------------------------------------

  /** The template literal `${user?.firstName} ${user?.lastName}`: with no
      embedded user both halves render as "undefined". */
  function TemplateFullName(c: ReportCard): string {
    match c.user
    case Some(u) => u.firstName + " " + u.lastName
    case None => "undefined undefined"
  }

  /** The per-card test of `filterReportCards`, as written. */
  predicate CardMatches(c: ReportCard, term: string) {
    || Includes(c.title, term)
    || (c.user.Some? && Includes(c.user.value.firstName, term))
    || (c.user.Some? && Includes(c.user.value.lastName, term))
    || (c.user.Some? && Includes(c.user.value.nationalCode, term))
    || Includes(TemplateFullName(c), term)
    || (c.description.Some? && Includes(c.description.value, term))
  }

  /** The owner fields that are present: the name parts, the code and the
      displayed full name. */
  ghost predicate OwnerMatches(u: UserSummary, term: string) {
    || Contains(u.firstName, term)
    || Contains(u.lastName, term)
    || Contains(u.nationalCode, term)
    || Contains(u.firstName + " " + u.lastName, term)
  }

  /** What the search is meant to do: the term occurs in the title, the
      description, or a field of the owner, when those exist. */
  ghost predicate IntendedMatch(c: ReportCard, term: string) {
    || Contains(c.title, term)
    || (c.description.Some? && Contains(c.description.value, term))
    || (c.user.Some? && OwnerMatches(c.user.value, term))
  }

  /** What the code does: the intended match, plus the literal
      "undefined undefined" standing in for a missing owner. */
  ghost predicate AsWrittenMatch(c: ReportCard, term: string) {
    || IntendedMatch(c, term)
    || (c.user.None? && Contains("undefined undefined", term))
  }

  lemma CardMatchesMeaning(c: ReportCard, term: string)
    ensures CardMatches(c, term) <==> AsWrittenMatch(c, term)
  {
  }

  /** `filterReportCards`, as written: a blank term keeps every card; otherwise
      exactly the cards of `AsWrittenMatch`, in their original order. */
  function FilterReportCards(cards: seq<ReportCard>, term: string): (r: seq<ReportCard>)
    ensures AllWhitespace(term) ==> r == cards
    ensures !AllWhitespace(term) ==> forall c :: c in r <==> c in cards && AsWrittenMatch(c, term)
    ensures !AllWhitespace(term) ==> forall c :: multiset(r)[c] == if AsWrittenMatch(c, term) then multiset(cards)[c] else 0
    ensures IsSubsequence(r, cards)
    ensures |r| <= |cards|
  {
    if IsBlank(term) then
      FilterAll(cards, _ => true);
      cards
    else
      var r := Filter(cards, c => CardMatches(c, term));
      assert forall c :: CardMatches(c, term) <==> AsWrittenMatch(c, term) by {
        forall c ensures CardMatches(c, term) <==> AsWrittenMatch(c, term) {
          CardMatchesMeaning(c, term);
        }
      }
      r
  }

  /** A card with no embedded owner is found only through its title, its
      description, or the text "undefined undefined". */
  lemma OwnerlessCardMatch(c: ReportCard, term: string)
    requires c.user.None? && !AllWhitespace(term)
    ensures c in FilterReportCards([c], term) <==>
              || Contains(c.title, term)
              || (c.description.Some? && Contains(c.description.value, term))
              || Contains("undefined undefined", term)
  {
  }

  /** The corrected filter: the same scan with `IntendedMatch`, so a missing
      owner contributes no text. */
  predicate CardMatchesIntended(c: ReportCard, term: string) {
    || Includes(c.title, term)
    || (c.description.Some? && Includes(c.description.value, term))
    || (c.user.Some? && (
         || Includes(c.user.value.firstName, term)
         || Includes(c.user.value.lastName, term)
         || Includes(c.user.value.nationalCode, term)
         || Includes(c.user.value.firstName + " " + c.user.value.lastName, term)))
  }

  /** The executable corrected test decides `IntendedMatch`. */
  lemma CardMatchesIntendedMeaning(c: ReportCard, term: string)
    ensures CardMatchesIntended(c, term) <==> IntendedMatch(c, term)
  {
  }

  function FilterReportCardsIntended(cards: seq<ReportCard>, term: string): (r: seq<ReportCard>)
    ensures AllWhitespace(term) ==> r == cards
    ensures !AllWhitespace(term) ==> forall c :: c in r <==> c in cards && IntendedMatch(c, term)
    ensures !AllWhitespace(term) ==> forall c :: multiset(r)[c] == if IntendedMatch(c, term) then multiset(cards)[c] else 0
    ensures IsSubsequence(r, cards)
  {
    if IsBlank(term) then
      FilterAll(cards, _ => true);
      cards
    else
      var r := Filter(cards, c => CardMatchesIntended(c, term));
      assert forall c :: CardMatchesIntended(c, term) <==> IntendedMatch(c, term) by {
        forall c ensures CardMatchesIntended(c, term) <==> IntendedMatch(c, term) {
          CardMatchesIntendedMeaning(c, term);
        }
      }
      r
  }

  /** The two filters differ only on owner-less cards: wherever every card has
      an owner they return the same list. */
  lemma {:induction false} FiltersAgreeWithOwners(cards: seq<ReportCard>, term: string)
    requires forall k :: 0 <= k < |cards| ==> cards[k].user.Some?
    ensures FilterReportCards(cards, term) == FilterReportCardsIntended(cards, term)
    decreases |cards|
  {
    if !IsBlank(term) && |cards| > 0 {
      FiltersAgreeWithOwners(cards[1..], term);
      assert CardMatches(cards[0], term) == CardMatchesIntended(cards[0], term);
    }
  }

  /** A card with no owner, titled "Math". */
  function OwnerlessMath(): ReportCard {
    ReportCard(7, 3, "Math", "uploads/math.pdf", None, "2024-01-01", 1, None)
  }

  /** "undefined" is longer than "Math", so it cannot occur in it. */
  lemma UndefinedNotInMath()
    ensures !Contains("Math", "undefined")
  {
    forall i ensures !OccursAt("Math", "undefined", i) {
      assert |"undefined"| > |"Math"|;
    }
  }

  /** Searching for "undefined" finds the owner-less "Math" card through the
      template text, although none of its fields contains the word. */
  lemma UndefinedFindsOwnerlessCard()
    ensures FilterReportCards([OwnerlessMath()], "undefined") == [OwnerlessMath()]
  {
    var c := OwnerlessMath();
    assert !AllWhitespace("undefined") by { assert !IsWhitespace("undefined"[0]); }
    assert OccursAt(TemplateFullName(c), "undefined", 0);
    assert CardMatches(c, "undefined");
    assert [c][1..] == [];
  }

  /** The corrected filter does not find the owner-less "Math" card for "undefined". */
  lemma IntendedSkipsOwnerlessCard()
    ensures FilterReportCardsIntended([OwnerlessMath()], "undefined") == []
  {
    var c := OwnerlessMath();
    assert !AllWhitespace("undefined") by { assert !IsWhitespace("undefined"[0]); }
    UndefinedNotInMath();
    assert !IntendedMatch(c, "undefined");
    assert !CardMatchesIntended(c, "undefined");
    assert [c][1..] == [];
  }

  // ---------------------------------------------------------------------------
  // Preview and type label
  // ---------------------------------------------------------------------------

  /** `filePath.match(/\.(jpg|jpeg|png)$/i)`: the preview is an image. */
  predicate IsImagePath(filePath: string) {
    var lower := ToLower(filePath);
    EndsWith(lower, ".jpg") || EndsWith(lower, ".jpeg") || EndsWith(lower, ".png")
  }

  /** The label properties of `r` relative to `filePath`: `r` is the text after
      the last dot (the whole path when there is none), upper-cased letter by letter. */
  ghost predicate IsTypeLabelOf(filePath: string, r: string) {
    && |r| <= |filePath|
    && '.' !in r
    && (|r| < |filePath| ==> filePath[|filePath| - |r| - 1] == '.')
    && forall k :: 0 <= k < |r| ==>
         && filePath[|filePath| - |r| + k] != '.'
         && SameLetterIgnoringCase(r[k], filePath[|filePath| - |r| + k])
         && !IsLowerAscii(r[k])
  }

  /** Upper-casing the last dot-separated segment gives a label of the path. */
  lemma SegmentUpperCased(p: string, seg: string, r: string)
    requires |seg| <= |p| && seg == p[|p| - |seg|..] && '.' !in seg
    requires |seg| < |p| ==> p[|p| - |seg| - 1] == '.'
    requires |r| == |seg|
    requires forall k :: 0 <= k < |r| ==> SameLetterIgnoringCase(r[k], seg[k]) && !IsLowerAscii(r[k])
    ensures IsTypeLabelOf(p, r)
  {
    forall k | 0 <= k < |r|
      ensures r[k] != '.' && p[|p| - |r| + k] == seg[k]
    {
      assert seg[k] != '.';
    }
  }

  /** `filePath.split('.').pop().toUpperCase()`: the label under "file type". */
  function TypeLabel(filePath: string): (r: string)
    ensures IsTypeLabelOf(filePath, r)
  {
    var seg := LastSegment(filePath, '.');
    var r := ToUpper(seg);
    SegmentUpperCased(filePath, seg, r);
    r
  }

  /** Case mapping round trips through the other case. */
  lemma CaseRoundTrip(c: char)
    ensures UpperChar(LowerChar(c)) == UpperChar(c)
    ensures LowerChar(UpperChar(c)) == LowerChar(c)
    ensures LowerChar(c) == '.' <==> c == '.'
  {
  }

  /** The path's last segment has the length of the extension and sits right after a dot. */
  lemma SegmentIsExtension(p: string, m: nat)
    requires m < |p| && p[|p| - m - 1] == '.'
    requires forall k :: |p| - m <= k < |p| ==> p[k] != '.'
    ensures LastSegment(p, '.') == p[|p| - m..]
  {
    var seg := LastSegment(p, '.');
    if |seg| > m {
      assert false;
    } else if |seg| < m {
      assert false;
    }
  }

  lemma LowerSuffixGivesLabel(p: string, e: string)
    requires |e| > 0 && forall k :: 0 <= k < |e| ==> IsLowerAscii(e[k])
    requires EndsWith(ToLower(p), "." + e)
    ensures '.' in p && TypeLabel(p) == ToUpper(e)
  {
    var n, m := |p|, |e|;
    var lower := ToLower(p);
    assert lower[n - m - 1] == lower[n - m - 1..][0] == ("." + e)[0] == '.';
    CaseRoundTrip(p[n - m - 1]);
    forall k | n - m <= k < n ensures p[k] != '.' && LowerChar(p[k]) == e[k - (n - m)] {
      assert lower[k] == lower[n - m - 1..][k - (n - m) + 1];
      CaseRoundTrip(p[k]);
    }
    SegmentIsExtension(p, m);
    var seg := LastSegment(p, '.');
    forall k | 0 <= k < m ensures ToUpper(seg)[k] == ToUpper(e)[k] {
      CaseRoundTrip(seg[k]);
    }
    assert p[n - m - 1] in p;
  }

  lemma LabelGivesLowerSuffix(p: string, e: string)
    requires |e| > 0 && forall k :: 0 <= k < |e| ==> IsLowerAscii(e[k])
    requires '.' in p && TypeLabel(p) == ToUpper(e)
    ensures EndsWith(ToLower(p), "." + e)
  {
    var n, m := |p|, |e|;
    var lower := ToLower(p);
    var seg := LastSegment(p, '.');
    assert |seg| == m;
    if |seg| == n {
      assert false;
    }
    assert p[n - m - 1] == '.';
    forall k | 0 <= k < m ensures LowerChar(seg[k]) == e[k] {
      assert UpperChar(seg[k]) == UpperChar(e[k]);
      CaseRoundTrip(seg[k]);
      CaseRoundTrip(e[k]);
    }
    forall k | 0 <= k < m + 1 ensures lower[n - m - 1..][k] == ("." + e)[k] {
      if k > 0 { assert p[n - m - 1 + k] == seg[k - 1]; }
    }
  }

  /** For a lower-case extension `e`: the path ends in "." + e, ignoring case,
      exactly when it has a dot and its type label is `e` in upper case. */
  lemma ExtensionAgreesWithLabel(p: string, e: string)
    requires |e| > 0 && forall k :: 0 <= k < |e| ==> IsLowerAscii(e[k])
    ensures EndsWith(ToLower(p), "." + e) <==> '.' in p && TypeLabel(p) == ToUpper(e)
  {
    if EndsWith(ToLower(p), "." + e) { LowerSuffixGivesLabel(p, e); }
    if '.' in p && TypeLabel(p) == ToUpper(e) { LabelGivesLowerSuffix(p, e); }
  }

  lemma UpperExtensions()
    ensures ToUpper("jpg") == "JPG" && ToUpper("jpeg") == "JPEG" && ToUpper("png") == "PNG"
  {
    var j, g, p := ToUpper("jpg"), ToUpper("jpeg"), ToUpper("png");
    assert j[0] == 'J' && j[1] == 'P' && j[2] == 'G';
    assert g[0] == 'J' && g[1] == 'P' && g[2] == 'E' && g[3] == 'G';
    assert p[0] == 'P' && p[1] == 'N' && p[2] == 'G';
  }

  lemma JpgAgrees(p: string)
    ensures EndsWith(ToLower(p), ".jpg") <==> '.' in p && TypeLabel(p) == "JPG"
  {
    assert "." + "jpg" == ".jpg";
    UpperExtensions();
    ExtensionAgreesWithLabel(p, "jpg");
  }

  lemma JpegAgrees(p: string)
    ensures EndsWith(ToLower(p), ".jpeg") <==> '.' in p && TypeLabel(p) == "JPEG"
  {
    assert "." + "jpeg" == ".jpeg";
    UpperExtensions();
    ExtensionAgreesWithLabel(p, "jpeg");
  }

  lemma PngAgrees(p: string)
    ensures EndsWith(ToLower(p), ".png") <==> '.' in p && TypeLabel(p) == "PNG"
  {
    assert "." + "png" == ".png";
    UpperExtensions();
    ExtensionAgreesWithLabel(p, "png");
  }

  /** The preview shows an image exactly when the path has a dot and the type
      label reads JPG, JPEG or PNG. */
  lemma PreviewAgreesWithLabel(p: string)
    ensures IsImagePath(p) <==> '.' in p && TypeLabel(p) in {"JPG", "JPEG", "PNG"}
  {
    JpgAgrees(p);
    JpegAgrees(p);
    PngAgrees(p);
  }

  // ---------------------------------------------------------------------------
  // View state and handlers
  // ---------------------------------------------------------------------------

  const LoadCardsFailedMessage: string := "خطا در بارگذاری کارنامه‌ها"
  const SelectFileMessage: string := "لطفا فایل را انتخاب کنید"
  const SelectUserMessage: string := "لطفا کاربر را انتخاب کنید"
  const UploadFailedMessage: string := "خطا در آپلود کارنامه"
  const DeleteFailedMessage: string := "خطا در حذف کارنامه"

  datatype View = View(
    cards: seq<ReportCard>,
    showUploadForm: bool,
    form: CreateReportCardRequest,
    selectedFile: Option<File>,
    loading: bool,
    error: Option<string>,
    searchTerm: string)

  /** The upload form as first shown and after a successful upload. */
  predicate IsFreshForm(f: CreateReportCardRequest) {
    f.userId == 0 && f.title == "" && f.description == Some("") && f.uploadedBy == 1
  }

  function FreshForm(): (f: CreateReportCardRequest)
    ensures IsFreshForm(f)
  {
    CreateReportCardRequest(0, "", Some(""), 1)
  }

  function InitialView(): (v: View)
    ensures v.cards == [] && !v.showUploadForm && v.selectedFile.None? && !v.loading && v.error.None?
    ensures IsFreshForm(v.form)
  {
    View([], false, FreshForm(), None, false, None, "")
  }

  datatype Step = Step(view: View, requests: seq<Api.Request>)

  /** The backend's answer to the upload. */
  datatype UploadOutcome = Uploaded | UploadRejected(serverMessage: Option<string>)

  /** `loadReportCards` over `getReportCards`: the answered payload, kept only when
      it is an array, or the load error when the fetch failed. */
  function ReloadCards(v: View, fetched: Option<Json<ReportCard>>): View {
    if fetched.Some? then v.(cards := Api.ArrayOrEmpty(fetched.value)) else v.(error := Some(LoadCardsFailedMessage))
  }

  /** `error.response?.data?.message || fallback`. */
  function UploadErrorText(serverMessage: Option<string>): (m: string)
    ensures |m| > 0
  {
    if serverMessage.Some? && |serverMessage.value| > 0 then serverMessage.value else UploadFailedMessage
  }

  /** `handleUploadReportCard`. The error is cleared first; a missing file is
      reported before a missing owner, and either sends nothing. Otherwise one
      upload is sent; success closes and resets the form and reloads the list,
      failure keeps the form and shows the server's message or the fallback. */
  function HandleUpload(v: View, outcome: UploadOutcome, fetched: Option<Json<ReportCard>>): (s: Step)
    ensures v.selectedFile.None? ==> s == Step(v.(error := Some(SelectFileMessage)), [])
    ensures v.selectedFile.Some? && v.form.userId == 0 ==> s == Step(v.(error := Some(SelectUserMessage)), [])
    ensures |s.requests| > 0 <==> v.selectedFile.Some? && v.form.userId != 0
    ensures |s.requests| > 0 ==> s.requests[0] == Api.CreateReportCard(v.form, v.selectedFile.value) && !s.view.loading
    ensures |s.requests| > 0 && outcome.Uploaded? ==>
              && s.requests == [Api.CreateReportCard(v.form, v.selectedFile.value), Api.GetReportCards()]
              && IsFreshForm(s.view.form) && s.view.selectedFile.None? && !s.view.showUploadForm
              && s.view.searchTerm == v.searchTerm
              && (fetched.Some? && fetched.value.JsonArray? ==> s.view.cards == fetched.value.items && s.view.error.None?)
              && (fetched.Some? && !fetched.value.JsonArray? ==> s.view.cards == [] && s.view.error.None?)
              && (fetched.None? ==> s.view.cards == v.cards && s.view.error == Some(LoadCardsFailedMessage))
    ensures |s.requests| > 0 && outcome.UploadRejected? ==>
              && |s.requests| == 1
              && s.view == v.(error := Some(UploadErrorText(outcome.serverMessage)), loading := false)
  {
    var cleared := v.(error := None);
    if v.selectedFile.None? then
      Step(cleared.(error := Some(SelectFileMessage)), [])
    else if v.form.userId == 0 then
      Step(cleared.(error := Some(SelectUserMessage)), [])
    else
      var upload := Api.CreateReportCard(v.form, v.selectedFile.value);
      var busy := cleared.(loading := true);
      match outcome
      case Uploaded =>
        var reset := busy.(showUploadForm := false, form := FreshForm(), selectedFile := None);
        Step(ReloadCards(reset, fetched).(loading := false), [upload, Api.GetReportCards()])
      case UploadRejected(m) =>
        Step(busy.(error := Some(UploadErrorText(m)), loading := false), [upload])
  }

  /** `handleDeleteReportCard` with the answer of `confirm()`: declining sends
      nothing and changes nothing. */
  function HandleDelete(v: View, reportCardId: int, confirmed: bool, deleted: bool, fetched: Option<Json<ReportCard>>): (s: Step)
    ensures !confirmed ==> s == Step(v, [])
    ensures confirmed && !deleted ==> s == Step(v.(error := Some(DeleteFailedMessage)), [Api.DeleteReportCard(reportCardId)])
    ensures confirmed && deleted ==>
              && s.requests == [Api.DeleteReportCard(reportCardId), Api.GetReportCards()]
              && (fetched.Some? && fetched.value.JsonArray? ==> s.view == v.(cards := fetched.value.items))
              && (fetched.Some? && !fetched.value.JsonArray? ==> s.view == v.(cards := []))
              && (fetched.None? ==> s.view == v.(error := Some(LoadCardsFailedMessage)))
  {
    if !confirmed then Step(v, [])
    else if !deleted then Step(v.(error := Some(DeleteFailedMessage)), [Api.DeleteReportCard(reportCardId)])
    else Step(ReloadCards(v, fetched), [Api.DeleteReportCard(reportCardId), Api.GetReportCards()])
  }
}

=== FILE: sequences.dfy ===
/** Order-preserving selection on sequences: `Array.prototype.filter` and `slice(0, n)`. */
module Sequences {

  /** `a` is obtained from `b` by deleting elements, keeping the order of the rest. */
  ghost predicate IsSubsequence<T>(a: seq<T>, b: seq<T>)
    decreases |b|
  {
    |a| == 0 || (|b| > 0 && ((a[0] == b[0] && IsSubsequence(a[1..], b[1..])) || IsSubsequence(a, b[1..])))
  }

  lemma {:induction false} SubsequenceShorter<T>(a: seq<T>, b: seq<T>)
    requires IsSubsequence(a, b)
    ensures |a| <= |b|
    decreases |b|
  {
    if |a| > 0 {
      if a[0] == b[0] && IsSubsequence(a[1..], b[1..]) {
        SubsequenceShorter(a[1..], b[1..]);
      } else {
        SubsequenceShorter(a, b[1..]);
      }
    }
  }

  /** `xs.filter(p)`: exactly the elements satisfying `p`, every occurrence of
      them, in their original order. */
  function Filter<T(!new)>(xs: seq<T>, p: T -> bool): (r: seq<T>)
    ensures forall x :: x in r <==> x in xs && p(x)
    ensures forall x :: multiset(r)[x] == if p(x) then multiset(xs)[x] else 0
    ensures IsSubsequence(r, xs)
    ensures |r| <= |xs|
    decreases |xs|
  {
    if |xs| == 0 then []
    else
      var rest := Filter(xs[1..], p);
      assert xs == [xs[0]] + xs[1..];
      if p(xs[0]) then [xs[0]] + rest else rest
  }

  /** Filtering distributes over concatenation; with the one-element case this
      pins `Filter` down completely. */
  lemma {:induction false} FilterConcat<T(!new)>(a: seq<T>, b: seq<T>, p: T -> bool)
    ensures Filter(a + b, p) == Filter(a, p) + Filter(b, p)
    decreases |a|
  {
    if |a| > 0 {
      assert (a + b)[1..] == a[1..] + b;
      FilterConcat(a[1..], b, p);
    } else {
      assert a + b == b;
    }
  }

  /** A predicate that holds of every element keeps the whole sequence. */
  lemma {:induction false} FilterAll<T(!new)>(xs: seq<T>, p: T -> bool)
    requires forall k :: 0 <= k < |xs| ==> p(xs[k])
    ensures Filter(xs, p) == xs
    decreases |xs|
  {
    if |xs| > 0 {
      FilterAll(xs[1..], p);
      assert xs == [xs[0]] + xs[1..];
    }
  }

  function Min(a: int, b: int): int { if a <= b then a else b }

  /** `xs.slice(0, n)` for `n >= 0`: the first `min(n, |xs|)` elements. */
  function Take<T>(xs: seq<T>, n: nat): (r: seq<T>)
    ensures |r| == Min(n, |xs|)
    ensures r <= xs
  {
    if n <= |xs| then xs[..n] else xs
  }
}

=== FILE: session_flows.dfy ===
/** How the pages fit together through browser storage: what one page writes,
    the next page's gate reads. */
module SessionFlows {
  import opened Wrappers
  import opened Types
  import opened Storage
  import LoginPage
  import AdminPage
  import DashboardPage
  import AdminDashboard
  import Api

  /** A successful login answer carrying a token and a user. */
  function Success(token: string, u: StoredUser): LoginPage.Reply {
    LoginPage.Decoded(true, LoginPage.LoginBody(None, Some(token), Some(u)))
  }

  /** As written, an administrator who logs in in a fresh tab is sent to /admin,
      whose gate reads `sessionStorage`, finds no session there and sends them
      back to /login, leaving the page on its loading spinner. */
  lemma AdminLoginBouncesOffAdminPage(
    st: LoginPage.State, b: Browser, token: string, u: StoredUser,
    stringify: StoredUser -> string, parse: string -> Option<StoredUser>)
    requires TokenKey !in b.session
    requires u.role == AdminRole
    ensures var s := LoginPage.HandleLogin(st, b, Success(token, u), stringify);
            var g := AdminPage.AuthGate(AdminPage.Initial(), s.browser, parse);
            && s.nav == Some(AdminRoute)
            && g.nav == Some(LoginRoute)
            && AdminPage.Render(g.state) == AdminPage.LoadingScreen
  {
    var s := LoginPage.HandleLogin(st, b, Success(token, u), stringify);
    assert s.browser.session == b.session;
    assert GetItem(s.browser.session, TokenKey).None?;
  }

  /** With the gate reading `localStorage`, where the login page writes, the
      same login opens the admin panel on its dashboard tab, provided the
      stored user text parses back to the user. */
  lemma AdminLoginOpensAdminPanel(
    st: LoginPage.State, b: Browser, token: string, u: StoredUser,
    stringify: StoredUser -> string, parse: string -> Option<StoredUser>)
    requires |token| > 0 && |stringify(u)| > 0 && parse(stringify(u)) == Some(u)
    requires u.role == AdminRole
    ensures var s := LoginPage.HandleLogin(st, b, Success(token, u), stringify);
            var g := AdminPage.AuthGateLocal(AdminPage.Initial(), s.browser, parse);
            && s.nav == Some(AdminRoute)
            && g.nav.None?
            && AdminPage.Render(g.state) == AdminPage.AdminScreen(AdminPage.DashboardTab)
  {
    var s := LoginPage.HandleLogin(st, b, Success(token, u), stringify);
    assert s.browser.local[TokenKey] == token;
    assert s.browser.local[UserKey] == stringify(u);
  }

  /** A user who is not an administrator is routed to the dashboard by the login
      page, turned away from the admin panel by the corrected gate, and admitted
      by the dashboard, which asks for that user's own cards with the new token. */
  lemma UserLoginOpensDashboard(
    st: LoginPage.State, b: Browser, token: string, u: StoredUser,
    stringify: StoredUser -> string, parse: string -> Option<StoredUser>, reply: DashboardPage.CardsReply)
    requires |token| > 0 && |stringify(u)| > 0 && parse(stringify(u)) == Some(u)
    requires u.role != AdminRole
    ensures var s := LoginPage.HandleLogin(st, b, Success(token, u), stringify);
            var g := AdminPage.AuthGateLocal(AdminPage.Initial(), s.browser, parse);
            var m := DashboardPage.OnMount(DashboardPage.Initial(), s.browser, parse, reply);
            && s.nav == Some(DashboardRoute)
            && g.nav == Some(DashboardRoute) && !AdminPage.Render(g.state).AdminScreen?
            && m.nav.None? && !m.crashed && m.state.user == Some(u)
            && m.requests == [Fetch(DashboardPage.CardsPath(u.id), "Bearer " + token)]
  {
    var s := LoginPage.HandleLogin(st, b, Success(token, u), stringify);
    assert s.browser.local[TokenKey] == token;
    assert s.browser.local[UserKey] == stringify(u);
  }

  /** After a login in a fresh tab, the API client finds the token in
      `localStorage` and sends it as the bearer. */
  lemma ApiUsesLoginToken(
    st: LoginPage.State, b: Browser, token: string, u: StoredUser,
    stringify: StoredUser -> string, h: Api.Headers)
    requires TokenKey !in b.session && |token| > 0
    ensures var s := LoginPage.HandleLogin(st, b, Success(token, u), stringify);
            Api.Authorize(h, s.browser) == h[Api.AuthorizationHeader := Api.BearerPrefix + token]
  {
    var s := LoginPage.HandleLogin(st, b, Success(token, u), stringify);
    assert s.browser.local[TokenKey] == token;
  }

  /** Logging out of the admin page clears only `sessionStorage`: a session the
      dashboard admitted before is admitted again afterwards. */
  lemma AdminLogoutKeepsLocalSession(
    b: Browser, parse: string -> Option<StoredUser>, reply: DashboardPage.CardsReply)
    ensures var out := AdminPage.HandleLogout(b).0;
            DashboardPage.OnMount(DashboardPage.Initial(), out, parse, reply)
              == DashboardPage.OnMount(DashboardPage.Initial(), b, parse, reply)
  {
  }
}

=== FILE: storage.dfy ===
/** The browser's two key/value stores and the navigation targets. */
module Storage {
  import opened Wrappers

  /** One Web Storage area: `sessionStorage` (tab-scoped) or `localStorage` (browser-scoped). */
  type Store = map<string, string>

  const TokenKey: string := "token"
  const UserKey: string := "user"

  /** Both storage areas the pages read and write. */
  datatype Browser = Browser(session: Store, local: Store)

  /** The client-side routes the handlers navigate to with `router.push`. */
  datatype Route = LoginRoute | AdminRoute | DashboardRoute {
    function Path(): string {
      match this
      case LoginRoute => "/login"
      case AdminRoute => "/admin"
      case DashboardRoute => "/dashboard"
    }
  }

  /** `getItem(key)`: the stored text, or None for `null`. */
  function GetItem(s: Store, key: string): (r: Option<string>)
  {
    if key in s then Some(s[key]) else None
  }

  /** JavaScript truthiness of a `getItem` result: present and not the empty string. */
  predicate Truthy(v: Option<string>) {
    v.Some? && |v.value| > 0
  }

  /** `removeItem('token'); removeItem('user')`: both session keys go, nothing else changes. */
  function ClearSession(s: Store): (r: Store)
    ensures TokenKey !in r && UserKey !in r
    ensures forall k :: k in s && k != TokenKey && k != UserKey ==> k in r && r[k] == s[k]
    ensures forall k :: k in r ==> k in s
  {
    s - {TokenKey, UserKey}
  }

  /** `setItem(key, value)`: only `key` changes. */
  function SetItem(s: Store, key: string, value: string): (r: Store)
    ensures key in r && r[key] == value
    ensures forall k :: k in s && k != key ==> k in r && r[k] == s[k]
    ensures forall k :: k in r ==> k in s || k == key
  {
    s[key := value]
  }
}

=== FILE: strings.dfy ===
/** The string operations the client code relies on: `includes`, `trim`,
    ASCII case mapping, `endsWith`, and `split('.').pop()`. */
module Strings {

  // ---------------------------------------------------------------------------
  // Substring search (`String.prototype.includes`)
  // ---------------------------------------------------------------------------

  /** `needle` occurs in `hay` starting at index `i`. */
  ghost predicate OccursAt(hay: string, needle: string, i: int) {
    0 <= i && i + |needle| <= |hay| && hay[i..i + |needle|] == needle
  }

  /** The reference meaning of `hay.includes(needle)`: some window of `hay` is `needle`. */
  ghost predicate Contains(hay: string, needle: string) {
    exists i :: OccursAt(hay, needle, i)
  }

  /** Moving one character into `hay` shifts every occurrence by one. */
  lemma OccursAtShift(hay: string, needle: string, i: int)
    requires |hay| > 0 && 1 <= i
    ensures OccursAt(hay, needle, i) <==> OccursAt(hay[1..], needle, i - 1)
  {
    if 0 <= i - 1 && i - 1 + |needle| <= |hay[1..]| {
      assert hay[1..][i - 1..i - 1 + |needle|] == hay[i..i + |needle|];
    }
  }

  /** Executable substring test, scanning left to right. */
  function Includes(hay: string, needle: string): (r: bool)
    ensures r <==> Contains(hay, needle)
    decreases |hay|
  {
    if |needle| > |hay| then
      assert forall i :: !OccursAt(hay, needle, i);
      false
    else if hay[..|needle|] == needle then
      assert OccursAt(hay, needle, 0);
      true
    else
      var rest := Includes(hay[1..], needle);
      assert rest ==> Contains(hay, needle) by {
        if rest {
          var j :| OccursAt(hay[1..], needle, j);
          OccursAtShift(hay, needle, j + 1);
        }
      }
      assert Contains(hay, needle) ==> rest by {
        if Contains(hay, needle) {
          var i :| OccursAt(hay, needle, i);
          assert i != 0;
          OccursAtShift(hay, needle, i);
        }
      }
      rest
  }

  // ---------------------------------------------------------------------------
  // Whitespace trimming (`String.prototype.trim`)
  // ---------------------------------------------------------------------------

  /** A fixed approximation of the characters JavaScript's `trim` removes. */
  predicate IsWhitespace(c: char) {
    c == ' ' || c == '\t' || c == '\n' || c == '\r' || c == '\U{B}' || c == '\U{C}'
    || c == '\U{A0}' || c == '\U{FEFF}' || c == '\U{2028}' || c == '\U{2029}'
  }

  ghost predicate AllWhitespace(s: string) {
    forall k :: 0 <= k < |s| ==> IsWhitespace(s[k])
  }

  /** `r` is the window of `s` starting at `i`, with only whitespace around it. */
  ghost predicate TrimmedAt(s: string, r: string, i: int) {
    && 0 <= i && i + |r| <= |s|
    && r == s[i..i + |r|]
    && AllWhitespace(s[..i])
    && AllWhitespace(s[i + |r|..])
  }

  function TrimStart(s: string): (r: string)
    ensures |r| <= |s| && r == s[|s| - |r|..]
    ensures AllWhitespace(s[..|s| - |r|])
    ensures |r| > 0 ==> !IsWhitespace(r[0])
    decreases |s|
  {
    if |s| > 0 && IsWhitespace(s[0]) then
      var r := TrimStart(s[1..]);
      assert s[..|s| - |r|] == [s[0]] + s[1..][..|s[1..]| - |r|];
      r
    else s
  }

  function TrimEnd(s: string): (r: string)
    ensures |r| <= |s| && r == s[..|r|]
    ensures AllWhitespace(s[|r|..])
    ensures |r| > 0 ==> !IsWhitespace(r[|r| - 1])
    decreases |s|
  {
    if |s| > 0 && IsWhitespace(s[|s| - 1]) then
      var r := TrimEnd(s[..|s| - 1]);
      assert s[|r|..] == s[..|s| - 1][|r|..] + [s[|s| - 1]];
      r
    else s
  }

  /** Splitting a string splits its whitespace-ness. */
  lemma AllWhitespaceSplit(s: string, i: int)
    requires 0 <= i <= |s|
    ensures AllWhitespace(s) <==> AllWhitespace(s[..i]) && AllWhitespace(s[i..])
  {
    if AllWhitespace(s[..i]) && AllWhitespace(s[i..]) {
      forall k | 0 <= k < |s| ensures IsWhitespace(s[k]) {
        if k < i { assert s[k] == s[..i][k]; } else { assert s[k] == s[i..][k - i]; }
      }
    }
    if AllWhitespace(s) {
      forall k | 0 <= k < i ensures IsWhitespace(s[..i][k]) { assert s[..i][k] == s[k]; }
      forall k | 0 <= k < |s| - i ensures IsWhitespace(s[i..][k]) { assert s[i..][k] == s[i + k]; }
    }
  }

  /** The facts `Trim` states, proved about its two passes. */
  lemma TrimWindow(s: string, a: string, r: string)
    requires |a| <= |s| && a == s[|s| - |a|..] && AllWhitespace(s[..|s| - |a|])
    requires |a| > 0 ==> !IsWhitespace(a[0])
    requires |r| <= |a| && r == a[..|r|] && AllWhitespace(a[|r|..])
    ensures TrimmedAt(s, r, |s| - |a|)
    ensures |r| > 0 ==> !IsWhitespace(r[0])
    ensures |r| == 0 <==> AllWhitespace(s)
  {
    var i := |s| - |a|;
    assert a == s[i..];
    assert r == a[..|r|];
    assert s[i..][..|r|] == s[i..i + |r|];
    assert s[i + |r|..] == a[|r|..];
    assert TrimmedAt(s, r, i);
    AllWhitespaceSplit(s, i);
    if |r| == 0 {
      assert a[|r|..] == a;
    } else {
      assert r[0] == a[0];
    }
  }

  /** `s.trim()`: the window of `s` left after removing leading and trailing
      whitespace; it is empty exactly when `s` is all whitespace. */
  function Trim(s: string): (r: string)
    ensures exists i :: TrimmedAt(s, r, i)
    ensures |r| > 0 ==> !IsWhitespace(r[0]) && !IsWhitespace(r[|r| - 1])
    ensures |r| == 0 <==> AllWhitespace(s)
  {
    var a := TrimStart(s);
    var r := TrimEnd(a);
    TrimWindow(s, a, r);
    r
  }

  /** JavaScript's `!s.trim()`: the trimmed string is empty. */
  predicate IsBlank(s: string) {
    |Trim(s)| == 0
  }

  // ---------------------------------------------------------------------------
  // ASCII case mapping (`toUpperCase`, the `i` regex flag)
  // ---------------------------------------------------------------------------

  predicate IsLowerAscii(c: char) { 'a' <= c <= 'z' }
  predicate IsUpperAscii(c: char) { 'A' <= c <= 'Z' }

  function UpperChar(c: char): char {
    if IsLowerAscii(c) then (c as int - 32) as char else c
  }

  function LowerChar(c: char): char {
    if IsUpperAscii(c) then (c as int + 32) as char else c
  }

  /** Two characters equal up to ASCII letter case. */
  predicate SameLetterIgnoringCase(a: char, b: char) {
    LowerChar(a) == LowerChar(b)
  }

  /** `s.toUpperCase()` restricted to ASCII letters: same letters, none lower-case. */
  function ToUpper(s: string): (r: string)
    ensures |r| == |s|
    ensures forall k :: 0 <= k < |r| ==> SameLetterIgnoringCase(r[k], s[k]) && !IsLowerAscii(r[k])
  {
    seq(|s|, k requires 0 <= k < |s| => UpperChar(s[k]))
  }

  /** `s.toLowerCase()` restricted to ASCII letters: same letters, none upper-case. */
  function ToLower(s: string): (r: string)
    ensures |r| == |s|
    ensures forall k :: 0 <= k < |r| ==> SameLetterIgnoringCase(r[k], s[k]) && !IsUpperAscii(r[k])
  {
    seq(|s|, k requires 0 <= k < |s| => LowerChar(s[k]))
  }

  predicate EndsWith(s: string, suffix: string) {
    |suffix| <= |s| && s[|s| - |suffix|..] == suffix
  }

  // ---------------------------------------------------------------------------
  // `split(sep).pop()`
  // ---------------------------------------------------------------------------

  /** `s.split(sep).pop()`: the text after the last `sep`, or all of `s` when
      `sep` does not occur. */
  function LastSegment(s: string, sep: char): (r: string)
    ensures |r| <= |s| && r == s[|s| - |r|..]
    ensures sep !in r
    ensures |r| < |s| ==> s[|s| - |r| - 1] == sep
    decreases |s|
  {
    if |s| == 0 then s
    else if s[|s| - 1] == sep then []
    else
      var init := s[..|s| - 1];
      var r := LastSegment(init, sep);
      assert s[|s| - |r| - 1..] == init[|init| - |r|..] + [s[|s| - 1]];
      assert |r| < |init| ==> s[|s| - |r| - 2] == init[|init| - |r| - 1];
      r + [s[|s| - 1]]
  }
}

=== FILE: types.dfy ===
/** The entities the client exchanges with the REST backend
    (src/types/user.ts and src/types/dashboard.ts). */
module Types {
  import opened Wrappers

  /** Access tier of an account. */
  datatype Role = USER | ADMIN

  /** The name and code of a report card's owner, embedded by the backend. */
  datatype UserSummary = UserSummary(firstName: string, lastName: string, nationalCode: string)

  /** An uploaded document (image or PDF) belonging to one user. */
  datatype ReportCard = ReportCard(
    id: int,
    userId: int,
    title: string,
    filePath: string,
    description: Option<string>,
    uploadedAt: string,
    uploadedBy: int,
    user: Option<UserSummary>)

  /** An account; `nationalCode` is the login name. */
  datatype User = User(
    id: int,
    nationalCode: string,
    firstName: string,
    lastName: string,
    fatherName: string,
    profileImage: Option<string>,
    role: Role,
    createdAt: string,
    updatedAt: string,
    reportCards: Option<seq<ReportCard>>)

  /** The metadata sent with a report-card upload. */
  datatype CreateReportCardRequest = CreateReportCardRequest(
    userId: int,
    title: string,
    description: Option<string>,
    uploadedBy: int)

  /** The create-user form: the account fields plus the initial password. */
  datatype NewUserForm = NewUserForm(
    nationalCode: string,
    firstName: string,
    lastName: string,
    fatherName: string,
    password: string,
    role: Role)

  /** Partial update of an account, every field optional. */
  datatype UpdateUserRequest = UpdateUserRequest(
    nationalCode: Option<string>,
    firstName: Option<string>,
    lastName: Option<string>,
    fatherName: Option<string>,
    profileImage: Option<string>,
    role: Option<Role>)

  /** Partial update of a report card. */
  datatype UpdateReportCardRequest = UpdateReportCardRequest(title: Option<string>, description: Option<string>)

  /** An opaque file picked in the browser, known by its name. */
  datatype File = File(name: string)

  /** A decoded response body: an array of items, some other JSON value, or a
      body that is not JSON at all, with the message the JSON parser rejects it with.
      For a non-array value, `zeroLength` records whether reading its `length`
      gives exactly 0 (the empty string, or an object with `length: 0`); for
      `null`, numbers and other objects it is false. */
  datatype Json<T> = JsonArray(items: seq<T>) | JsonOther(zeroLength: bool) | NotJson(parseError: string)

  /** The user object read back from browser storage by `JSON.parse`. Its role
      is whatever string the stored JSON carries. */
  datatype StoredUser = StoredUser(
    id: int,
    firstName: string,
    lastName: string,
    nationalCode: string,
    fatherName: string,
    role: string)

  /** A `fetch` call the pages make directly, with its `Authorization` header. */
  datatype Fetch = Fetch(path: string, authorization: string)

  /** The role string the pages compare against. */
  const AdminRole: string := "ADMIN"
}

=== FILE: user_management.dfy ===
/** The user-management view of src/components/UserManagement.tsx: client-side
    search, the create form and its reset, image upload and confirmed delete. */
module UserManagement {
  import opened Wrappers
  import opened Types
  import opened Strings
  import opened Sequences
  import Api

  // ---------------------------------------------------------------------------
  // Search
  // ---------------------------------------------------------------------------

  /** The display name the search also looks in. */
  function FullName(u: User): string {
    u.firstName + " " + u.lastName
  }

  /** The per-user test of the filter, with `includes`. */
  predicate UserMatches(u: User, term: string) {
    || Includes(u.nationalCode, term)
    || Includes(u.firstName, term)
    || Includes(u.lastName, term)
    || Includes(u.fatherName, term)
    || Includes(FullName(u), term)
  }

  /** What the search promises: the term, as typed, occurs in one of the fields. */
  ghost predicate Matches(u: User, term: string) {
    || Contains(u.nationalCode, term)
    || Contains(u.firstName, term)
    || Contains(u.lastName, term)
    || Contains(u.fatherName, term)
    || Contains(u.firstName + " " + u.lastName, term)
  }

  /** `filterUsers`: a blank term keeps everyone; otherwise exactly the matching
      users are kept, each as often as it occurs, in the original order. */
  function FilterUsers(users: seq<User>, term: string): (r: seq<User>)
    ensures AllWhitespace(term) ==> r == users
    ensures !AllWhitespace(term) ==> forall u :: u in r <==> u in users && Matches(u, term)
    ensures !AllWhitespace(term) ==> forall u :: multiset(r)[u] == if Matches(u, term) then multiset(users)[u] else 0
    ensures IsSubsequence(r, users)
    ensures |r| <= |users|
  {
    if IsBlank(term) then
      FilterAll(users, _ => true);
      users
    else
      Filter(users, u => UserMatches(u, term))
  }

  /** The sample user of the padded-term example. */
  function Ali(): User {
    User(1, "0012", "Ali", "Karimi", "Reza", None, USER, "", "", None)
  }

  lemma AliMatchesName()
    ensures FilterUsers([Ali()], "Ali") == [Ali()]
  {
    assert !AllWhitespace("Ali") by { assert !IsWhitespace("Ali"[0]); }
    assert OccursAt(Ali().firstName, "Ali", 0);
    assert UserMatches(Ali(), "Ali");
    assert [Ali()][1..] == [];
  }

  lemma PaddedNameMatchesNobody()
    ensures FilterUsers([Ali()], " Ali") == []
  {
    var u := Ali();
    assert !AllWhitespace(" Ali") by { assert !IsWhitespace(" Ali"[1]); }
    NoSpaceNoMatch(u.nationalCode, " Ali");
    NoSpaceNoMatch(u.firstName, " Ali");
    NoSpaceNoMatch(u.lastName, " Ali");
    NoSpaceNoMatch(u.fatherName, " Ali");
    var full := u.firstName + " " + u.lastName;
    assert full == "Ali Karimi";
    forall i ensures !OccursAt(full, " Ali", i) {
      if 0 <= i && i + 4 <= |full| {
        if i == 3 {
          assert full[i..i + 4][1] == 'K';
        } else {
          assert full[i..i + 4][0] == full[i] != ' ';
        }
      }
    }
    assert !Matches(u, " Ali");
    assert [u][1..] == [];
  }

  /** The trimmed term decides only whether to filter; matching uses the term as
      typed, so the padded " Ali" finds nobody although "Ali" finds the user. */
  lemma MatchingUsesUntrimmedTerm()
    ensures FilterUsers([Ali()], "Ali") == [Ali()]
    ensures FilterUsers([Ali()], " Ali") == []
  {
    AliMatchesName();
    PaddedNameMatchesNobody();
  }

  /** A term starting with a space cannot occur in a string without spaces. */
  lemma NoSpaceNoMatch(hay: string, term: string)
    requires |term| > 0 && term[0] == ' ' && ' ' !in hay
    ensures !Contains(hay, term)
  {
    forall i ensures !OccursAt(hay, term, i) {
      if 0 <= i && i + |term| <= |hay| {
        assert hay[i..i + |term|][0] == hay[i];
      }
    }
  }

  // ---------------------------------------------------------------------------
  // View state and handlers
  // ---------------------------------------------------------------------------

  datatype View = View(
    users: seq<User>,
    showCreateForm: bool,
    form: NewUserForm,
    searchTerm: string,
    loading: bool)

  /** A create form with every text field empty and role USER. */
  predicate IsEmptyForm(f: NewUserForm) {
    && f.nationalCode == "" && f.firstName == "" && f.lastName == ""
    && f.fatherName == "" && f.password == "" && f.role == USER
  }

  function EmptyForm(): (f: NewUserForm)
    ensures IsEmptyForm(f)
  {
    NewUserForm("", "", "", "", "", USER)
  }

  /** The component's state when first mounted, before its list arrives. */
  function InitialView(): (v: View)
    ensures v.users == [] && !v.showCreateForm && !v.loading && v.searchTerm == ""
    ensures IsEmptyForm(v.form)
  {
    View([], false, EmptyForm(), "", false)
  }

  /** The list the component renders: the search applied to the loaded users. */
  function Shown(v: View): (r: seq<User>)
    ensures v.searchTerm == "" ==> r == v.users
  {
    FilterUsers(v.users, v.searchTerm)
  }

  /** The view after one handler, and the requests it sent, in order. */
  datatype Step = Step(view: View, requests: seq<Api.Request>)

  /** `loadUsers` over `getUsers`: the answered payload, kept only when it is an
      array; a failed fetch is only logged, so the list stays as it was. */
  function Reload(v: View, fetched: Option<Json<User>>): View {
    if fetched.Some? then v.(users := Api.ArrayOrEmpty(fetched.value)) else v
  }

  /** `handleCreateUser` with the backend's answer `created` and the reload result
      `fetched`. Success closes and empties the form and reloads; failure keeps
      the typed input; either way `loading` ends false. */
  function HandleCreateUser(v: View, created: bool, fetched: Option<Json<User>>): (s: Step)
    ensures !s.view.loading && s.view.searchTerm == v.searchTerm
    ensures created ==> s.requests == [Api.CreateUser(v.form), Api.GetUsers()]
    ensures created ==> !s.view.showCreateForm && s.view.form == InitialView().form
    ensures created && fetched.Some? && fetched.value.JsonArray? ==> s.view.users == fetched.value.items
    ensures created && fetched.Some? && !fetched.value.JsonArray? ==> s.view.users == []
    ensures !created || fetched.None? ==> s.view.users == v.users
    ensures !created ==> s.requests == [Api.CreateUser(v.form)]
    ensures !created ==> s.view.form == v.form && s.view.showCreateForm == v.showCreateForm
  {
    var started := v.(loading := true);
    if created then
      var closed := started.(showCreateForm := false, form := EmptyForm());
      Step(Reload(closed, fetched).(loading := false), [Api.CreateUser(v.form), Api.GetUsers()])
    else
      Step(started.(loading := false), [Api.CreateUser(v.form)])
  }

  /** `handleImageUpload` behind the file input's guard: nothing happens unless a
      file was picked; the list is reloaded only after a successful upload. */
  function HandleImageUpload(v: View, userId: int, picked: Option<File>, uploaded: bool, fetched: Option<Json<User>>): (s: Step)
    ensures picked.None? ==> s == Step(v, [])
    ensures picked.Some? && !uploaded ==> s == Step(v, [Api.UploadProfileImage(userId, picked.value)])
    ensures picked.Some? && uploaded ==>
              s.requests == [Api.UploadProfileImage(userId, picked.value), Api.GetUsers()]
              && s.view.users == (if fetched.Some? && fetched.value.JsonArray? then fetched.value.items
                                  else if fetched.Some? then [] else v.users)
              && s.view == v.(users := s.view.users)
  {
    if picked.None? then Step(v, [])
    else if !uploaded then Step(v, [Api.UploadProfileImage(userId, picked.value)])
    else Step(Reload(v, fetched), [Api.UploadProfileImage(userId, picked.value), Api.GetUsers()])
  }

  /** `handleDeleteUser` with the answer of `confirm()`: declining sends nothing
      and changes nothing; confirming sends the delete and reloads on success. */
  function HandleDeleteUser(v: View, userId: int, confirmed: bool, deleted: bool, fetched: Option<Json<User>>): (s: Step)
    ensures !confirmed ==> s == Step(v, [])
    ensures confirmed ==> |s.requests| > 0 && s.requests[0] == Api.DeleteUser(userId)
    ensures confirmed && !deleted ==> s == Step(v, [Api.DeleteUser(userId)])
    ensures confirmed && deleted ==>
              s.requests == [Api.DeleteUser(userId), Api.GetUsers()]
              && s.view.users == (if fetched.Some? && fetched.value.JsonArray? then fetched.value.items
                                  else if fetched.Some? then [] else v.users)
              && s.view == v.(users := s.view.users)
  {
    if !confirmed then Step(v, [])
    else if !deleted then Step(v, [Api.DeleteUser(userId)])
    else Step(Reload(v, fetched), [Api.DeleteUser(userId), Api.GetUsers()])
  }
}

=== FILE: wrappers.dfy ===
/** The optional-value datatype used for JavaScript's `undefined`/`null`
    and for oracle results that may fail (JSON parsing, token decoding). */
module Wrappers {

  datatype Option<+T> = None | Some(value: T) {

    /** Returns the value in Some or the given default when None. */
    function GetOr(default: T): T {
      match this
      case Some(v) => v
      case None => default
    }
  }
}
